=== FILE: README.md ===
# Virtual-scroll table: a Dafny model

This project models the core of the million-row table in `MultipleList/`.

- **Windowing engine** (`VirtualScrollManager`). It keeps the base and filtered records, the scroll offsets and the container and column geometry. From these it derives:
  - the row window `[startIndex, endIndex)`;
  - the visible column range;
  - the per-column substring filter.

  Every change is reported through the ordered listener calls `onDataChange` and `onScroll`.
- **Render decisions** shared by `CanvasRenderer` and `SvgRenderer`:
  - the hovered row, the row skip test and the row background;
  - cell formatting;
  - the x-offsets of header labels, cells and borders;
  - wheel routing;
  - the SVG size fallback and the SVG readiness check;
  - `clipText`, the binary search for the longest prefix plus `...` that fits a width.
- **Scrollbar manager** (`ScrollbarManager`): thumb geometry, thumb dragging, track clicks and the choice of container.
- **Coordinator** (`TableManager`): reactions to the engine's listener calls, render-mode switching, the search boxes, and loading new data.

## How the model is built

Modules follow the program's structure:

| module | file | models |
|---|---|---|
| `Common` | `common.dfy` | Shared types, plus `Math.floor`/`Math.ceil` of a quotient, the scroll clamp and `Array.prototype.slice` |
| `Columns` | `columns.dfy` | Column widths, prefix sums, `getVisibleColumns` |
| `Records` | `records.dfy` | Record values, `toLowerCase`, `includes`, `Number.prototype.toString`, the filter callback |
| `Engine` | `engine.dfy` | `VirtualScrollManager` |
| `Clip` | `clip.dfy` | `clipText` (identical in both renderers) |
| `Render` | `render.dfy` | The rest of the shared renderer logic |
| `Hover` | `hover.dfy` | The pointer handlers and the redraw that follows them |
| `Scrollbar` | `scrollbar.dfy` | `ScrollbarManager` |
| `Table` | `table.dfy` | `TableManager` |

State is immutable:
- Every engine operation is a function from the old engine to a `Step`: the new engine plus the listener calls it made, in order.
- Coordinator operations return a `Run`: the new table, the visible effects in order (a renderer drew, thumbs were set), and whether the call threw.

Numbers:
- Pixel geometry (container size, row and header height, column widths) is an integer.
- Scroll offsets, pointer coordinates, wheel deltas and scrollbar ratios are exact reals.
- `Math.floor(x / d)` is the unique `q` with `q*d <= x < (q+1)*d`.

The model follows the code as written. Behaviour of the code as written that a reader might not expect:
- `setData` keeps the current scroll offsets rather than resetting them to the origin.
- `updateDimensions` does not clamp the offsets into the new bounds.
- `filterData` throws (a `TypeError`) when a non-empty pattern meets an absent value. The model returns `Aborted` with the state unchanged.
- Cell formatting throws on an absent `salary`. The `TypeError` leaves `render()` through the listener call that asked for the redraw, so the engine method that made the call stops there: its state is already updated, but its later listener calls and the coordinator's own later steps never happen. Every listener call of one engine step renders the same state, so either the first redraw throws or none does.
- `applyFilters` and `setData` call the scrollbar manager without checking that it exists. The manager is absent exactly when a container is missing, and `switchRenderMode` then throws even earlier, at its first write to the missing container's `style`, after recording the new mode.

Two lemmas exhibit the consequences of the first two points:
- `Engine.SetDataCanLeaveWindowEmpty`: a window with `startIndex > endIndex` and no visible rows, although the data is not empty.
- `Engine.ResizeCanLeaveOffsetOutOfBounds`: an offset beyond the new maximum after a resize.

## Model

| member | source | states |
|---|---|---|
| Common.FloorDiv | MultipleList/virtualScroll.js:87 | `Math.floor(scrollTop / rowHeight)` is the integer whose row band `[q*d, (q+1)*d)` contains the offset |
| Common.FloorDivUnique | MultipleList/canvasRenderer.js:117-118 | Any integer whose band contains the value is the floor quotient |
| Common.CeilDiv | MultipleList/virtualScroll.js:73 | `Math.ceil(a / d)` is the least `q` with `a <= q*d` |
| Common.CeilDivUnique | MultipleList/virtualScroll.js:73 | The ceiling quotient is the only `q` with `(q-1)*d < a <= q*d` |
| Common.Clamp | MultipleList/virtualScroll.js:153 | The clamped offset lies in `[0, max]`; it equals the request when that is in range, 0 below the range and `max` above it |
| Common.JsSlice | MultipleList/virtualScroll.js:110 | `slice(a, b)` is the subsequence `[a, b)` for in-range ordered bounds, and empty when `b <= a` |
| Columns.SumWidthsIsPrefix | MultipleList/virtualScroll.js:79 | The `reduce` over column widths equals the right edge of the last column as the render loops accumulate it |
| Columns.TotalWidthIsPrefix | MultipleList/virtualScroll.js:79 | The content width is the sum of the column widths, and it is non-negative |
| Columns.PrefixTail | MultipleList/virtualScroll.js:228-235 | Dropping the first column shifts every left edge by that column's width |
| Columns.FindStart | MultipleList/virtualScroll.js:228-236 | The first scan returns the first column whose right edge passes `scrollLeft`, or keeps 0 when no column does |
| Columns.FindEnd | MultipleList/virtualScroll.js:239-251 | The second scan returns the first column from `start` on whose left edge passes `containerWidth + scrollLeft`, or `columns.length` |
| Columns.StartColumnSpans | MultipleList/virtualScroll.js:228-236 | For an offset inside the content, the start column's span `[prefix(i), prefix(i+1))` contains it; beyond the content the start is 0 |
| Columns.VisibleColumns | MultipleList/virtualScroll.js:222-256 | `0 <= start <= end <= columns.length`; the start column contains the offset; `end` is the first column past the viewport's right edge, or the column count |
| Records.Lower | MultipleList/virtualScroll.js:134 | `toLowerCase` keeps the length and lower-cases each character |
| Records.LowerIdempotent | MultipleList/virtualScroll.js:134 | Lower-casing twice is lower-casing once |
| Records.IncludesIff | MultipleList/virtualScroll.js:134 | `Includes` (`String.prototype.includes`) is true iff the pattern occurs at some position of the string |
| Records.IncludesEmpty | MultipleList/virtualScroll.js:130 | The empty pattern is included in every string |
| Records.DecimalRoundTrip | MultipleList/virtualScroll.js:136 | The text `DecimalString` gives a number, as matched and shown, reads back as that number |
| Records.CheckMeaning | MultipleList/virtualScroll.js:128-137 | The callback (`Check`) keeps a record iff every key passes; it throws iff some key throws after all earlier keys passed |
| Records.ValueMatches | MultipleList/virtualScroll.js:132-136 | Reading an absent value throws; text matches iff the lower-cased pattern occurs in the lower-cased text; a number matches iff the pattern occurs in its decimal text |
| Records.FilterRecords | MultipleList/virtualScroll.js:127-138 | `filter` throws iff some record's test throws; otherwise a record is kept iff it is in the data and passes |
| Records.FilterConcat | MultipleList/virtualScroll.js:127 | Filtering keeps the original order: it distributes over concatenation |
| Records.SurvivorsConcat | MultipleList/virtualScroll.js:127 | The records a non-throwing filter keeps, taken in order, distribute over concatenation |
| Records.BlankFilterKeepsAll | MultipleList/virtualScroll.js:130 | With every pattern empty, the filter keeps all the data unchanged |
| Records.FilterIdempotent | MultipleList/virtualScroll.js:127-138 | Filtering a filtered sequence again with the same filter changes nothing |
| Engine.UpdateDimensions | MultipleList/virtualScroll.js:57-80 | Without a container nothing changes. Otherwise a zero height falls back to 600 and a zero width to 1200, `visibleRowCount` is the ceiling of the body height over the row height, the totals follow the data and columns, and nothing else changes |
| Engine.WindowStartBand | MultipleList/virtualScroll.js:87-90 | The window start (`WindowStart`) is never negative. When it is positive, the row under the top edge is `start + bufferSize`; when it is 0, the top edge is within the first `bufferSize + 1` rows |
| Engine.WindowEndSize | MultipleList/virtualScroll.js:93-94 | The window end (`WindowEnd`) never passes the row count. The window holds `visibleRowCount + 2*bufferSize` rows when that many remain past the start, and otherwise reaches the last row |
| Engine.CalculateVisibleRange | MultipleList/virtualScroll.js:85-104 | Only the window changes. `startIndex >= 0` and `endIndex <= len`. The row at the top of the viewport is `startIndex + bufferSize` unless the start is 0. The window has `visibleRowCount + 2*bufferSize` rows whenever that many remain, and reaches the end otherwise. One `onDataChange` call carries the new window |
| Engine.InBoundsBelowContent | MultipleList/virtualScroll.js:152-153 | With the offset clamped into `[0, maxScrollTop]` and a container at least as tall as the header, the offset never passes `len * rowHeight`, the top of the row after the last |
| Engine.WindowOrdered | MultipleList/virtualScroll.js:85-111 | For any offset within `[0, len * rowHeight]`, `0 <= startIndex <= endIndex <= len` and the visible data is exactly `filtered[startIndex..endIndex)`; a full window has `visibleRowCount + 2*bufferSize` rows |
| Engine.GetVisibleData | MultipleList/virtualScroll.js:109-111 | The visible data is `filtered[startIndex..endIndex)` for an ordered window within the records, empty for an inverted one, and never holds a record that is not filtered |
| Engine.NewEngine | MultipleList/virtualScroll.js:5-52 | The option defaults are 40 / 45 / 5 and the eleven default columns; both record sequences are the given data; the state starts at the origin with `startIndex` 0. With a container the derived fields agree with the data and geometry and the offsets are in bounds. The one notice is the data change for window `[0, endIndex)` at the origin, carrying exactly that window's records |
| Engine.RemeasuredAtOrigin | MultipleList/virtualScroll.js:49-52 | Measuring a container and computing the window at the origin leaves the derived fields consistent and both offsets in bounds |
| Engine.SetData | MultipleList/virtualScroll.js:116-121 | Both sequences become the new data and the scroll offsets are kept. With a container the geometry is re-measured and the engine is consistent with the new data; without one the old geometry stays. The window is recomputed for the kept offset and the new length, and the one `onDataChange` call carries that window, its records and the offsets |
| Engine.FilterData | MultipleList/virtualScroll.js:126-146 | Aborts iff some base record's test throws. Otherwise the filtered sequence is the filter of the base data, both offsets are 0, the window starts at 0, and there is one `onDataChange` call |
| Engine.FilterDataKeepsExactlyMatches | MultipleList/virtualScroll.js:127-138 | A record is shown after filtering iff it is in the base data and matches every non-empty pattern |
| Engine.FilterDataIdempotent | MultipleList/virtualScroll.js:126-146 | Filtering again with the same filter yields the same state and the same listener calls |
| Engine.FilterDataEstablishesInvariant | MultipleList/virtualScroll.js:141-145 | After a filter the derived fields agree with the data and geometry, and the offsets are in bounds |
| Engine.HandleVerticalScroll | MultipleList/virtualScroll.js:151-162 | The offset is clamped into `[0, maxScrollTop]` and equals the request when in range; the window is recomputed; `onDataChange` then `onScroll`, with both offsets and both maxima |
| Engine.HandleHorizontalScroll | MultipleList/virtualScroll.js:167-177 | The offset is clamped into `[0, maxScrollLeft]`; nothing else changes, including the window; one `onScroll` call |
| Engine.VerticalScrollPreservesInvariant | MultipleList/virtualScroll.js:151-162 | Vertical scrolling keeps the engine consistent and in bounds |
| Engine.HorizontalScrollPreservesInvariant | MultipleList/virtualScroll.js:167-177 | Horizontal scrolling keeps the engine consistent and in bounds |
| Engine.ScrollTo | MultipleList/virtualScroll.js:182-189 | Each supplied offset becomes its request clamped into `[0, max]`, with the maxima of the starting state; an absent offset is untouched. A vertical request comes first, with its own `onDataChange` and `onScroll` calls; a horizontal one ends the trace with an `onScroll` carrying both final offsets |
| Engine.ScrollToRow | MultipleList/virtualScroll.js:194-197 | The offset becomes the row's top edge clamped to `[0, max]`, and the window starts where the row-window rule puts it for that clamped offset. When the top edge is reachable it is the offset itself, and the window starts `bufferSize` rows above the row, or at 0 |
| Engine.GetScrollInfo | MultipleList/virtualScroll.js:202-217 | Every field is the engine's own; each maximum is the content's overhang past the container, or 0 when there is none; `totalRows` is the filtered length; offsets of an in-bounds engine lie within the maxima |
| Engine.GetVisibleColumns | MultipleList/virtualScroll.js:222-256 | The column range of the engine's own geometry is ordered and within the columns |
| Engine.SetDataCanLeaveWindowEmpty | MultipleList/virtualScroll.js:116-121 | Replacing 1000 rows scrolled to 20000 by one row leaves `startIndex > endIndex` and no visible row |
| Engine.ResizeCanLeaveOffsetOutOfBounds | MultipleList/virtualScroll.js:57-80 | A taller container can leave an in-bounds offset beyond the new maximum |
| Clip.ClipText | MultipleList/canvasRenderer.js:318-343 | A fitting text is returned unchanged. Otherwise the result is a fitting prefix plus `...`, or the bare `...`. For a monotone width it is the longest fitting prefix, and the bare `...` exactly when not even it fits |
| Render.SetupSurface | MultipleList/svgRenderer.js:49-60 | The canvas takes the measured size; SVG replaces a zero width by 1200 and a zero height by 600 |
| Render.NewRenderer | MultipleList/canvasRenderer.js:5-39 | A new renderer has its surface set up, no hovered row and, for SVG, its groups created |
| Render.HoveredRow | MultipleList/canvasRenderer.js:110-125 | The hovered row lies in `[-1, len)`; a row other than -1 is below the header and its band contains the pointer |
| Render.HoveredRowExact | MultipleList/svgRenderer.js:155-170 | An existing row is hovered iff it lies under the pointer; -1 means no existing row is under it |
| Hover.PointerMove | MultipleList/canvasRenderer.js:110-127 | A pointer move changes only the hovered row, which stays in `[-1, len)` and, when not -1, is the row under the pointer. The table is then drawn again for the new state, and in that frame exactly the hovered row is highlighted |
| Hover.PointerLeave | MultipleList/canvasRenderer.js:76-79 | Leaving the surface clears the hover and changes nothing else. The table is then drawn again for the new state, and no row of that frame is highlighted |
| Hover.HighlightFollowsHover | MultipleList/canvasRenderer.js:214-220 | In a drawn frame a row has the hover colour exactly when it is the hovered row |
| Render.WheelAxis | MultipleList/canvasRenderer.js:88 | The vertical axis wins iff `abs(deltaY) > abs(deltaX)`; ties go to the horizontal axis |
| Render.Wheel | MultipleList/svgRenderer.js:126-141 | One wheel event scrolls exactly one axis by its delta; the other offset (and, horizontally, the window) stays put |
| Render.HoveredRowIsDrawn | MultipleList/canvasRenderer.js:206-212 | The hovered row is never skipped while the pointer is on the surface |
| Render.RowTopMonotone | MultipleList/canvasRenderer.js:207 | A row with a larger index starts further down (`RowTop`) |
| Render.TopRowStraddlesHeader | MultipleList/svgRenderer.js:266 | The row under the viewport's top edge starts less than one row above the header's bottom edge and not below it |
| Render.DrawnRowsContiguous | MultipleList/svgRenderer.js:270 | The skip test (`SkipRow`) leaves one run of rows: a row between two drawn rows is drawn |
| Render.Background | MultipleList/canvasRenderer.js:214-220 | Hover colour iff the row is hovered; otherwise stripe iff the index is odd; otherwise plain |
| Render.StripesAlternate | MultipleList/svgRenderer.js:275-280 | Neighbouring non-hovered rows get different backgrounds, neither of them the hover colour |
| Render.FormatCell | MultipleList/canvasRenderer.js:242-248 | Throws iff `salary` is absent. A numeric salary is `¥` plus its locale text and a string salary `¥` plus the string. Other strings are unchanged. An absent value becomes `""`. Other numbers become their decimal text (`DecimalString`), which reads back as the number |
| Render.ColumnXs | MultipleList/canvasRenderer.js:229-270 | Column `i + k` is drawn at the start position plus the widths of the columns between them |
| Render.HeaderLabels | MultipleList/canvasRenderer.js:160-192 | One title per visible column, at `prefix(i) - scrollLeft + cellPadding` |
| Render.RowCells | MultipleList/svgRenderer.js:299-337 | The row throws iff one visible cell's formatting throws. Otherwise each visible column has one cell, at its x plus the padding, clipped to `width - 2*cellPadding` |
| Render.RowCellsThrowExactly | MultipleList/canvasRenderer.js:242-248 | Formatting a row's cells throws iff a salary column is among them and the row has no salary |
| Render.CellXs | MultipleList/canvasRenderer.js:229-235 | Visible column `k` starts at the width of all columns before it, less `scrollLeft` |
| Render.PaintRows | MultipleList/canvasRenderer.js:205-272 | Throws iff some visible row that is not skipped has a cell whose formatting throws. Otherwise each painted row is a visible row that is not skipped, at `headerHeight + index*rowHeight - scrollTop`, with its background and the formatted cells of the visible columns at their x positions; rows come in index order, each once, and every visible row that is not skipped is painted |
| Render.BorderLoop | MultipleList/svgRenderer.js:360-383 | At most one line per boundary, each on the surface |
| Render.BorderLoopMeaning | MultipleList/canvasRenderer.js:293-312 | A line is drawn at `v` iff `v` is one of the boundaries `start..end` (inclusive), shifted to start at the loop's `x`, and lies on the surface |
| Render.BorderXs | MultipleList/canvasRenderer.js:277-313 | Every vertical border lies on the surface |
| Render.BorderXsExact | MultipleList/svgRenderer.js:360-383 | The borders are exactly the boundaries `prefix(j) - scrollLeft`, `j` in `[start, end]`, that fall on the surface |
| Render.RenderFrameMeaning | MultipleList/svgRenderer.js:178-200 | Nothing is drawn iff it is SVG with its groups missing. Otherwise it throws iff some drawn row has a cell whose formatting throws, and else the frame holds the header labels, the borders and exactly the painted rows of the window |
| Render.RenderCrashesExactly | MultipleList/canvasRenderer.js:197-248 | `render()` throws iff it gets past the SVG group check, a salary column is visible and some drawn row has no salary |
| Render.BackendsDrawAlike | MultipleList/svgRenderer.js:178-185 | With the same surface and hover, the two back-ends draw the same frame |
| Scrollbar.ThumbSize | MultipleList/tableManager.js:612 | The thumb is at least 20 px long and at least the visible fraction of the track |
| Scrollbar.ThumbFor | MultipleList/tableManager.js:611-620 | The thumb is shown iff there is something to scroll. A hidden thumb sits at 0. A shown thumb's offset is to the free track what the scroll offset is to its maximum |
| Scrollbar.ThumbWithinTrack | MultipleList/tableManager.js:611-616 | With the offset in range and a track at least 20 px long, a shown thumb fits its track and its offset keeps it inside |
| Scrollbar.VerticalThumb | MultipleList/tableManager.js:607-621 | The vertical thumb has size `ThumbSize`, is shown iff `maxScrollTop > 0`, sits at 0 when hidden, and otherwise is to the free track what `scrollTop` is to `maxScrollTop` |
| Scrollbar.HorizontalThumb | MultipleList/tableManager.js:626-640 | The horizontal thumb has size `ThumbSize`, is shown iff `maxScrollLeft > 0`, sits at 0 when hidden, and otherwise is to the free track what `scrollLeft` is to `maxScrollLeft` |
| Scrollbar.ThumbsWithinTracks | MultipleList/tableManager.js:594-602 | For an in-bounds engine both shown thumbs lie within their tracks |
| Scrollbar.UpdateScrollbars | MultipleList/tableManager.js:594-602 | Each thumb has size `ThumbSize` for its axis, is shown iff the content overhangs the container on that axis, sits at 0 when hidden, and otherwise is placed in proportion to the offset |
| Scrollbar.NewScrollbar | MultipleList/tableManager.js:433-445 | The manager starts on the canvas container with no drag in progress |
| Scrollbar.StartDrag | MultipleList/tableManager.js:499-514 | A drag records the pointer coordinate and the engine's offset on the dragged axis; the container is unchanged |
| Scrollbar.DragTarget | MultipleList/tableManager.js:525-531 | A zero pointer displacement requests the starting offset |
| Scrollbar.DragFollowsPointer | MultipleList/tableManager.js:530-531 | The thumb offset of the requested scroll offset is the starting thumb offset plus the pointer displacement |
| Scrollbar.HandleDrag | MultipleList/tableManager.js:519-545 | Nothing happens iff no drag is in progress. Otherwise the dragged axis scrolls to the drag target, and an unmoved pointer keeps an in-range starting offset |
| Scrollbar.EndDrag | MultipleList/tableManager.js:550-556 | Ending a drag clears the drag flag and axis and nothing else |
| Scrollbar.NoDragAfterEnd | MultipleList/tableManager.js:520 | After `endDrag` pointer moves request nothing, whatever the geometry |
| Scrollbar.ClickTarget | MultipleList/tableManager.js:566-569 | The requested offset is to the maximum what the click position is to the track length; a click at the start requests 0, one at the end the maximum |
| Scrollbar.ClickTargetInRange | MultipleList/tableManager.js:561-580 | A click inside the track requests an offset in `[0, max]`, and the request grows with the click position |
| Scrollbar.TrackClick | MultipleList/tableManager.js:561-581 | A track click scrolls the clicked axis to the proportional offset through the engine |
| Scrollbar.TrackClickLands | MultipleList/tableManager.js:561-581 | A click inside the track lands exactly on the proportional offset, untouched by the clamp |
| Scrollbar.SwitchContainer | MultipleList/tableManager.js:586-589 | Only the container changes, and the thumbs are recomputed for it |
| Table.DispatchAppend | MultipleList/tableManager.js:222-248 | A trace of listener calls is answered call by call, in order, and nothing after the first throwing call is answered |
| Table.OnNoticeMeaning | MultipleList/tableManager.js:222-248 | `handleScroll` sets the thumbs then redraws and `handleDataChange` only redraws; either throws iff rendering throws, and then draws nothing |
| Table.DispatchOne | MultipleList/tableManager.js:222-248 | A single listener call is answered by its own handler |
| Table.DispatchThrowsExactly | MultipleList/tableManager.js:222-248 | A trace of calls throws iff it is not empty and rendering throws; it then stops at the first call, after that call's thumb update if it is a scroll report |
| Table.OnlyCurrentDrawn | MultipleList/tableManager.js:222-248 | Only the current renderer is ever drawn and only the current container's thumbs are set; when renderers exist and rendering does not throw, any listener call redraws the current renderer |
| Table.SalariedRowsNeverThrow | MultipleList/canvasRenderer.js:242-248 | When every filtered record has a salary, rendering never throws |
| Table.VerticalScrollEffects | MultipleList/tableManager.js:222-235 | A vertical scroll throws iff rendering the scrolled state throws, and then nothing is drawn and the thumbs are untouched. Otherwise it gives a redraw, then the thumbs for the new offset, then a redraw |
| Table.SwitchRenderMode | MultipleList/tableManager.js:185-217 | The same mode is a no-op. Without a scrollbar manager (a missing container) only the mode is recorded before the call throws. Otherwise the canvas renderer is chosen iff the mode is `'canvas'`, the scrollbar follows and its thumbs are set first, and the engine and search boxes are untouched. The new renderer draws iff it exists and rendering does not throw; the call throws iff rendering throws, and a call that completes ends with the unguarded thumb update |
| Table.SwitchRenderModeIdempotent | MultipleList/tableManager.js:186 | Switching again to the mode just chosen does nothing |
| Table.SwitchRoundTrip | MultipleList/tableManager.js:185-217 | Switching away and back restores the mode, the renderer choice and the scrollbar container |
| Table.ManagerEngineMeasurable | MultipleList/tableManager.js:61-72 | The engine the manager builds for a measured container has a non-zero content height and width |
| Table.FilteredStaysMeasurable | MultipleList/virtualScroll.js:127-146 | A filter that completes leaves a non-zero content height and width, so the thumb arithmetic that follows stays defined |
| Table.ApplyFilters | MultipleList/tableManager.js:253-257 | A throwing filter aborts with nothing changed. Otherwise the engine is filtered by the boxes. A throwing redraw ends the call with no effects. Otherwise the current renderer redraws and the thumbs are set. The call throws iff rendering throws or there is no scrollbar manager |
| Table.EditBox | MultipleList/tableManager.js:137-163 | Typing sets exactly one box and then applies the filters |
| Table.ClearFilters | MultipleList/tableManager.js:262-282 | All four boxes become empty |
| Table.ClearFiltersShowsAll | MultipleList/tableManager.js:262-282 | After clearing, every base record is shown in order from the origin; the call throws iff there is no scrollbar manager or rendering that state throws |
| Table.OnWheel | MultipleList/canvasRenderer.js:82-97 | A wheel event replaces only the engine, changes at most one offset, and throws iff rendering the scrolled state throws |
| Table.OnDragMove | MultipleList/tableManager.js:519-545 | A pointer move does nothing unless a drag is in progress; during a drag the engine scrolls to the drag target and the calls are answered, and the move throws iff rendering the scrolled state throws |
| Table.SetData | MultipleList/tableManager.js:327-333 | The engine takes the data. The call throws iff the scrollbar manager or the renderers are missing or rendering the new state throws; a throwing redraw leaves no effects. Otherwise it redraws, sets the thumbs and redraws again |

## Left out

- `main.js`, `dataGenerator.js`, `practice/debounceAndThrottle.js` and the Vite configuration. These are bootstrap, random data generation, timers and build settings.
- Drawing calls (`fillRect`, `fillText`, SVG element creation) and the device-pixel-ratio scaling. A frame is modelled as the list of labels, painted rows and border positions.
- Text measurement and `toLocaleString` are function parameters. `clipText`'s result is characterised for any width function, and its maximality for a monotone one.
- Floating-point rounding. Offsets and ratios are exact reals, and pixel geometry is integers.
- Events:
  - Listener registration and removal. The drag listeners the manager adds with `bind` are never removed; only the `isDragging` guard is modelled.
  - The window `resize` handlers.
- The loading overlay, the status text, the render-time readout, and the asynchronous `generateTestData` flow with its re-entrancy flag.
- `destroy()` of every class. It only drops references and listeners.
- Records:
  - Numeric values are integers.
  - `toLowerCase` folds ASCII letters only.
  - Values other than numbers, strings and absent values (booleans, objects) are not modelled.
- Scrollbar.ThumbFor: requires a non-zero content extent. With columns of total width 0 the source divides by zero and sets a non-finite width on a hidden thumb.
- Scrollbar.HandleDrag: requires, while a drag is in progress, non-zero content extents and a free track length other than 0 on the dragged axis. With a track exactly as long as the thumb, the source divides by zero and requests a non-finite offset. Without a drag there is no requirement.
- Table.OnDragMove: carries the same requirements as `Scrollbar.HandleDrag`, again only while a drag is in progress.
- Scrollbar.ClickTarget: requires a non-zero track length, for the same reason.
- Table.ApplyFilters: requires positive content extents (`Measurable`), which the scrollbar arithmetic divides by.
- Table.Refresh, Table.OnNotice, Table.OnWheel, Table.SetData and Table.ApplyFilters: their requirements on the content extents are met wherever the application calls them. main.js:62-77 checks that every container exists before the manager is built. The manager passes no `columns` to the engine (tableManager.js:61-72), so the eleven default columns and the 45-pixel header keep both extents positive (`Table.ManagerEngineMeasurable`, and `Table.FilteredStaysMeasurable` after each filter).
- Table.OnDragMove: the engine state at the time of each listener call is the final state of the step. This is exact for the single-axis scroll calls the coordinator makes.
- Render.RowCells: cells carry their text before clipping and their clip width; `clipText` itself is `Clip.ClipText`.
- Render.RenderFrame: a throwing cell makes the whole frame `Crashed`. The rows painted before the throw are not recorded.
- Records.DecimalString: writes every integer in plain decimal digits. JavaScript's `toString` switches to exponent form (`1e+21`) at magnitudes of 10^21 and above; those numbers are not modelled.
- Scrollbar.UpdateScrollbars: always produces both thumbs. `updateVerticalScrollbar` and `updateHorizontalScrollbar` return early when the container has no thumb element (tableManager.js:609 and :628); the model assumes both elements exist.
- Clip.ClipText and Records.IncludesIff: strings are sequences of Unicode scalar values. JavaScript's `length`, `substring` and `includes` count UTF-16 code units, so for text outside the Basic Multilingual Plane (emoji, for example) the source searches over a different length and can split a surrogate pair, which the model cannot.
- Table.SwitchRenderMode: the containers themselves are not part of the table; an absent scrollbar manager stands for a missing container, which is the only way the source leaves the manager unset (tableManager.js:104-107).

=== FILE: clip.dfy ===
/** `clipText(text, maxWidth)`, identical in canvasRenderer.js and
    svgRenderer.js: keep the text when it fits, otherwise binary-search the
    longest prefix that still fits once `'...'` is appended. Text measurement
    (`measureText` / `getBBox`) is an opaque width function. */
module Clip {

  const Ellipsis: string := "..."

  /** The candidate the search measures for prefix length `k`. */
  function Trial(text: string, k: nat): string
    requires k <= |text|
  {
    text[..k] + Ellipsis
  }

  ghost predicate FitsAt(measure: string -> real, text: string, maxWidth: int, k: nat)
    requires k <= |text|
  {
    measure(Trial(text, k)) <= maxWidth as real
  }

  /** Longer prefixes never measure narrower: the assumption under which the
      search finds the longest fitting prefix. */
  ghost predicate Monotone(measure: string -> real, text: string)
  {
    forall i: nat, j: nat :: i <= j <= |text| ==> measure(Trial(text, i)) <= measure(Trial(text, j))
  }

  method ClipText(text: string, maxWidth: int, measure: string -> real) returns (r: string)
    // a text that fits is returned as it is, so clipping is idempotent on
    // anything that already fits
    ensures measure(text) <= maxWidth as real ==> r == text
    // otherwise: a fitting prefix plus the ellipsis, or the bare ellipsis
    ensures measure(text) > maxWidth as real ==>
      r == Ellipsis || exists k: nat :: k <= |text| && r == Trial(text, k) && FitsAt(measure, text, maxWidth, k)
    // for a monotone width, the prefix is the longest that fits, and the bare
    // ellipsis is returned exactly when not even it fits
    ensures measure(text) > maxWidth as real && Monotone(measure, text) && FitsAt(measure, text, maxWidth, 0) ==>
      exists k: nat :: k <= |text| && r == Trial(text, k) && FitsAt(measure, text, maxWidth, k)
        && forall j: nat :: k < j <= |text| ==> !FitsAt(measure, text, maxWidth, j)
    ensures measure(text) > maxWidth as real && Monotone(measure, text) && !FitsAt(measure, text, maxWidth, 0) ==>
      r == Ellipsis
  {
    if measure(text) <= maxWidth as real {
      return text;
    }
    var left := 0;
    var right := |text|;
    var result := "";
    while left <= right
      invariant 0 <= left <= right + 1 <= |text| + 1
      invariant left == 0 ==> result == ""
      invariant left > 0 ==> result == Trial(text, left - 1) && FitsAt(measure, text, maxWidth, left - 1)
      invariant Monotone(measure, text) ==>
        forall j: nat :: right < j <= |text| ==> !FitsAt(measure, text, maxWidth, j)
      invariant Monotone(measure, text) ==>
        forall j: nat :: j < left ==> FitsAt(measure, text, maxWidth, j)
      decreases right - left + 1
    {
      var mid := (left + right) / 2;
      var test := text[..mid] + Ellipsis;
      assert test == Trial(text, mid);
      if measure(test) <= maxWidth as real {
        result := test;
        left := mid + 1;
      } else {
        assert Monotone(measure, text) ==>
          forall j: nat :: mid <= j <= |text| ==> measure(Trial(text, mid)) <= measure(Trial(text, j));
        right := mid - 1;
      }
    }
    r := if result == "" then Ellipsis else result;
  }
}

=== FILE: columns.dfy ===
/** Column geometry of the table: the fixed column sequence, the running sums of
    column widths that place every column on the virtual x axis, and the visible
    column range that `getVisibleColumns` derives from the horizontal scroll
    offset (virtualScroll.js). */
module Columns {
  import opened Common

  /** `{ key, title, width }`; widths are whole, non-negative pixel extents. */
  datatype Column = Column(key: string, title: string, width: nat)

  /** The column set the engine uses when none is supplied. */
  const DefaultColumns: seq<Column> := [
    Column("id", "ID", 80),
    Column("name", "姓名", 120),
    Column("department", "部门", 100),
    Column("position", "职位", 140),
    Column("city", "城市", 100),
    Column("age", "年龄", 80),
    Column("salary", "薪资", 100),
    Column("joinDate", "入职日期", 120),
    Column("email", "邮箱", 200),
    Column("phone", "电话", 140),
    Column("experience", "过往经历", 500)
  ]

  /** Left edge of column `i` on the virtual x axis: the widths of the columns
      before it, accumulated left to right as every render pass does. */
  function Prefix(cols: seq<Column>, i: nat): nat
    requires i <= |cols|
  {
    if i == 0 then 0 else Prefix(cols, i - 1) + cols[i - 1].width
  }

  /** Right edge of column `i`: `currentX + columns[i].width` in the source. */
  function Right(cols: seq<Column>, i: nat): nat
    requires i < |cols|
  {
    Prefix(cols, i) + cols[i].width
  }

  /** `columns.reduce((sum, col) => sum + col.width, acc)`. */
  function SumWidths(cols: seq<Column>, acc: int): int
  {
    if |cols| == 0 then acc else SumWidths(cols[1..], acc + cols[0].width)
  }

  /** The virtual content width. */
  function TotalWidth(cols: seq<Column>): int
  {
    SumWidths(cols, 0)
  }

  lemma PrefixMonotone(cols: seq<Column>, i: nat, j: nat)
    requires i <= j <= |cols|
    ensures Prefix(cols, i) <= Prefix(cols, j)
  {
  }

  /** Dropping the first column shifts every left edge by its width. */
  lemma {:induction false} PrefixTail(cols: seq<Column>, i: nat)
    requires 0 < |cols| && i < |cols|
    ensures Prefix(cols, i + 1) == cols[0].width + Prefix(cols[1..], i)
  {
    if i > 0 {
      PrefixTail(cols, i - 1);
    }
  }

  /** The reduce in `updateDimensions` computes the right edge of the last
      column, so the content width agrees with the column placement. */
  lemma {:induction false} SumWidthsIsPrefix(cols: seq<Column>, acc: int)
    ensures SumWidths(cols, acc) == acc + Prefix(cols, |cols|)
    decreases |cols|
  {
    if |cols| > 0 {
      SumWidthsIsPrefix(cols[1..], acc + cols[0].width);
      PrefixTail(cols, |cols| - 1);
    }
  }

  lemma TotalWidthIsPrefix(cols: seq<Column>)
    ensures TotalWidth(cols) == Prefix(cols, |cols|)
    ensures TotalWidth(cols) >= 0
  {
    SumWidthsIsPrefix(cols, 0);
  }

  /** The half-open index range `[start, end)` of columns to draw. */
  datatype ColumnRange = ColumnRange(start: nat, end: nat)

  /** The first loop of `getVisibleColumns`: scan left to right for the first
      column whose right edge lies beyond `scrollLeft`; when there is none the
      start index keeps its initial value 0. */
  function FindStart(cols: seq<Column>, scrollLeft: real, i: nat, x: int): (r: nat)
    requires i <= |cols| && x == Prefix(cols, i)
    ensures || (r == 0 && forall j :: i <= j < |cols| ==> Right(cols, j) as real <= scrollLeft)
            || (i <= r < |cols| && scrollLeft < Right(cols, r) as real
                && forall j :: i <= j < r ==> Right(cols, j) as real <= scrollLeft)
    decreases |cols| - i
  {
    if i == |cols| then 0
    else if (x + cols[i].width) as real > scrollLeft then i
    else FindStart(cols, scrollLeft, i + 1, x + cols[i].width)
  }

  /** The second loop of `getVisibleColumns`: it re-accumulates the widths of the
      columns before `start`, then stops at the first column from `start` on
      whose left edge lies beyond `limit` (`containerWidth + scrollLeft`); when
      there is none the end index keeps its initial value `columns.length`. */
  function FindEnd(cols: seq<Column>, limit: real, start: nat, i: nat, x: int): (r: nat)
    requires start <= |cols| && i <= |cols| && x == Prefix(cols, i)
    ensures MaxInt(i, start) <= r <= |cols|
    ensures r < |cols| ==> limit < Prefix(cols, r) as real
    ensures forall j :: MaxInt(i, start) <= j < r ==> Prefix(cols, j) as real <= limit
    decreases |cols| - i
  {
    if i == |cols| then |cols|
    else if i < start then FindEnd(cols, limit, start, i + 1, x + cols[i].width)
    else if x as real > limit then i
    else FindEnd(cols, limit, start, i + 1, x + cols[i].width)
  }

  /** What the first scan's result means for an offset inside or beyond the content. */
  lemma StartColumnSpans(cols: seq<Column>, scrollLeft: real, s: nat)
    requires s == FindStart(cols, scrollLeft, 0, 0)
    ensures 0.0 <= scrollLeft < TotalWidth(cols) as real ==>
              s < |cols| && Prefix(cols, s) as real <= scrollLeft < Right(cols, s) as real
    ensures TotalWidth(cols) as real <= scrollLeft ==> s == 0
  {
    TotalWidthIsPrefix(cols);
    if 0.0 <= scrollLeft < TotalWidth(cols) as real {
      assert Right(cols, |cols| - 1) == Prefix(cols, |cols|);
      if s > 0 {
        assert Right(cols, s - 1) == Prefix(cols, s);
      }
    }
    if TotalWidth(cols) as real <= scrollLeft && s < |cols| {
      PrefixMonotone(cols, s + 1, |cols|);
      assert Right(cols, s) == Prefix(cols, s + 1);
    }
  }

  /** `getVisibleColumns()`: the start column is the one whose span contains the
      scroll offset, and the end column is the first later column that begins
      past the right edge of the viewport. */
  function VisibleColumns(cols: seq<Column>, scrollLeft: real, containerWidth: int): (c: ColumnRange)
    ensures c.start <= c.end <= |cols|
    ensures 0.0 <= scrollLeft < TotalWidth(cols) as real ==>
              c.start < |cols| && Prefix(cols, c.start) as real <= scrollLeft < Right(cols, c.start) as real
    ensures TotalWidth(cols) as real <= scrollLeft ==> c.start == 0
    ensures c.end < |cols| ==> containerWidth as real + scrollLeft < Prefix(cols, c.end) as real
    ensures forall j :: c.start <= j < c.end ==> Prefix(cols, j) as real <= containerWidth as real + scrollLeft
  {
    var s := FindStart(cols, scrollLeft, 0, 0);
    var e := FindEnd(cols, containerWidth as real + scrollLeft, s, 0, 0);
    StartColumnSpans(cols, scrollLeft, s);
    ColumnRange(s, e)
  }
}

=== FILE: common.dfy ===
/** Shared vocabulary of the table: optional values, the two scroll axes, the two
    drawing back-ends, and the JavaScript number operations (`Math.floor`,
    `Math.ceil`, `Math.max`/`Math.min` clamping, `Array.prototype.slice`) that the
    windowing engine and the renderers are built from. */
module Common {

  datatype Option<+T> = None | Some(value: T)

  /** The two scroll directions ('vertical' / 'horizontal' in the source). */
  datatype Axis = Vertical | Horizontal

  /** The two render back-ends ('canvas' / 'svg' in the source). */
  datatype Backend = Canvas | Svg

  /** A measured element size (`getBoundingClientRect()`), in whole pixels. */
  datatype Size = Size(width: nat, height: nat)

  type Positive = n: int | n > 0 witness 1

  function MaxInt(a: int, b: int): int { if a >= b then a else b }
  function MinInt(a: int, b: int): int { if a <= b then a else b }
  function MaxReal(a: real, b: real): real { if a >= b then a else b }
  function MinReal(a: real, b: real): real { if a <= b then a else b }
  function AbsReal(a: real): real { if a < 0.0 then -a else a }

  /** Multiplying both sides of `a <= b` by a positive integer keeps the order. */
  lemma MulMonotone(a: real, b: real, d: int)
    requires d > 0 && a <= b
    ensures a * d as real <= b * d as real
  {
  }

  /** `Math.floor(x / d)` for a positive integer divisor: the one integer `q`
      whose band `[q*d, (q+1)*d)` contains `x`. */
  function FloorDiv(x: real, d: int): (q: int)
    requires d > 0
    ensures (q * d) as real <= x < ((q + 1) * d) as real
  {
    var y := x / d as real;
    assert y * d as real == x;
    MulMonotone(y.Floor as real, y, d);
    MulMonotone(y, (y.Floor + 1) as real, d);
    y.Floor
  }

  /** The integer counterpart of `MulMonotone`. */
  lemma MulLe(a: int, b: int, d: int)
    requires a <= b && d > 0
    ensures a * d <= b * d
  {
  }

  /** Only one band contains `x`, so the floor quotient is determined by it. */
  lemma FloorDivUnique(x: real, d: int, k: int)
    requires d > 0
    requires (k * d) as real <= x < ((k + 1) * d) as real
    ensures FloorDiv(x, d) == k
  {
    var q := FloorDiv(x, d);
    if q < k {
      MulLe(q + 1, k, d);
      assert false;
    } else if q > k {
      MulLe(k + 1, q, d);
      assert false;
    }
  }

  /** `Math.ceil(a / d)` for integers and a positive divisor: the least `q` with
      `a <= q*d`. Dafny's `/` is Euclidean, so `-((-a) / d)` rounds up. */
  function CeilDiv(a: int, d: int): (q: int)
    requires d > 0
    ensures (q - 1) * d < a <= q * d
  {
    -((-a) / d)
  }

  lemma CeilDivUnique(a: int, d: int, k: int)
    requires d > 0
    requires (k - 1) * d < a <= k * d
    ensures CeilDiv(a, d) == k
  {
  }

  /** `Math.max(0, Math.min(t, hi))`: the scroll clamp of the source. */
  function Clamp(t: real, hi: int): (r: real)
    requires hi >= 0
    ensures 0.0 <= r <= hi as real
    ensures 0.0 <= t <= hi as real ==> r == t
    ensures t < 0.0 ==> r == 0.0
    ensures t > hi as real ==> r == hi as real
  {
    MaxReal(0.0, MinReal(t, hi as real))
  }

  /** How `Array.prototype.slice` reads one index argument: negative values count
      back from the end, and the result is confined to `[0, len]`. */
  function SliceIndex(i: int, len: nat): (r: nat)
    ensures r <= len
    ensures 0 <= i <= len ==> r == i
  {
    if i < 0 then (if len + i < 0 then 0 else len + i)
    else if i > len then len
    else i
  }

  /** `s.slice(a, b)`. */
  function JsSlice<T>(s: seq<T>, a: int, b: int): (r: seq<T>)
    ensures 0 <= a <= b <= |s| ==> r == s[a..b]
    ensures 0 <= b <= a ==> r == []
    ensures |r| <= |s|
    ensures forall i :: 0 <= i < |r| ==> r[i] in s
  {
    var lo := SliceIndex(a, |s|);
    var hi := SliceIndex(b, |s|);
    if lo < hi then s[lo..hi] else []
  }
}

=== FILE: engine.dfy ===
/** The windowing engine, `VirtualScrollManager` (virtualScroll.js): it owns the
    base and filtered record sequences, the scroll offsets and the container
    and column geometry, derives the row window `[startIndex, endIndex)` and the
    visible column range, and reports every change through the ordered
    listener calls `onDataChange` and `onScroll`, modelled as a trace of
    notices. Each operation is a pure function from the old state. */
module Engine {
  import opened Common
  import opened Columns
  import opened Records

  /** Constructor options. A 0 stands for an option that was not supplied:
      `options.x || default` treats a missing value and 0 alike. */
  datatype Options = Options(
    data: seq<Record>,
    rowHeight: nat,
    headerHeight: nat,
    columns: Option<seq<Column>>,
    bufferSize: nat)

  datatype Engine = Engine(
    data: seq<Record>,
    filtered: seq<Record>,
    rowHeight: Positive,
    headerHeight: Positive,
    bufferSize: Positive,
    columns: seq<Column>,
    visibleRowCount: int,
    scrollTop: real,
    scrollLeft: real,
    startIndex: int,
    endIndex: int,
    containerHeight: int,
    containerWidth: int,
    totalHeight: int,
    totalWidth: int)

  /** The two listener calls, with the payload each one carries. */
  datatype Notice =
    | DataChanged(startIndex: int, endIndex: int, visibleData: seq<Record>, scrollTop: real, scrollLeft: real)
    | Scrolled(scrollTop: real, scrollLeft: real, maxScrollTop: int, maxScrollLeft: int)

  /** The state after an operation and the listener calls it made, in order. */
  datatype Step = Step(engine: Engine, notices: seq<Notice>)

  const DefaultHeight := 600
  const DefaultWidth := 1200

  function MaxScrollTop(e: Engine): int
  {
    MaxInt(0, e.totalHeight - e.containerHeight)
  }

  function MaxScrollLeft(e: Engine): int
  {
    MaxInt(0, e.totalWidth - e.containerWidth)
  }

  // ---------------------------------------------------------------------------
  // Geometry and the row window
  // ---------------------------------------------------------------------------

  /** `updateDimensions()`. `measured` is the container's bounding rectangle, or
      `None` when the engine has no container (the method then returns at
      once). A zero extent is replaced by the fallback size. The scroll offsets
      are left as they are, even when they now exceed the new maxima. */
  function UpdateDimensions(e: Engine, measured: Option<Size>): (e': Engine)
    ensures measured.None? ==> e' == e
    ensures measured.Some? ==>
      && e'.containerHeight == (if measured.value.height == 0 then DefaultHeight else measured.value.height)
      && e'.containerWidth == (if measured.value.width == 0 then DefaultWidth else measured.value.width)
      && e'.containerHeight > 0 && e'.containerWidth > 0
      && (e'.visibleRowCount - 1) * e.rowHeight < e'.containerHeight - e.headerHeight
      && e'.containerHeight - e.headerHeight <= e'.visibleRowCount * e.rowHeight
      && e'.totalHeight == e.headerHeight + |e.filtered| * e.rowHeight
      && e'.totalWidth == Prefix(e.columns, |e.columns|)
      && e' == e.(containerHeight := e'.containerHeight, containerWidth := e'.containerWidth,
                  visibleRowCount := e'.visibleRowCount, totalHeight := e'.totalHeight,
                  totalWidth := e'.totalWidth)
  {
    match measured
    case None => e
    case Some(rect) =>
      var h := if rect.height == 0 then DefaultHeight else rect.height;
      var w := if rect.width == 0 then DefaultWidth else rect.width;
      TotalWidthIsPrefix(e.columns);
      e.(containerHeight := h,
         containerWidth := w,
         visibleRowCount := CeilDiv(h - e.headerHeight, e.rowHeight),
         totalHeight := e.headerHeight + |e.filtered| * e.rowHeight,
         totalWidth := TotalWidth(e.columns))
  }

  /** `Math.max(0, Math.floor(scrollTop / rowHeight) - bufferSize)`. */
  function WindowStart(scrollTop: real, rowHeight: Positive, bufferSize: int): int
  {
    MaxInt(0, FloorDiv(scrollTop, rowHeight) - bufferSize)
  }

  /** `Math.min(length, startIndex + visibleRowCount + 2 * bufferSize)`. */
  function WindowEnd(startIndex: int, visibleRowCount: int, bufferSize: int, length: nat): int
  {
    MinInt(length, startIndex + visibleRowCount + bufferSize * 2)
  }

  /** `getVisibleData()`: `filteredData.slice(startIndex, endIndex)`, the
      records of the window, and nothing when the window is empty or inverted. */
  function GetVisibleData(e: Engine): (vis: seq<Record>)
    ensures 0 <= e.startIndex <= e.endIndex <= |e.filtered| ==> vis == e.filtered[e.startIndex..e.endIndex]
    ensures 0 <= e.endIndex <= e.startIndex ==> vis == []
    ensures forall i :: 0 <= i < |vis| ==> vis[i] in e.filtered
  {
    JsSlice(e.filtered, e.startIndex, e.endIndex)
  }

  /** The start of the window and the row at the top of the viewport: unless
      the start is 0, the viewport's top row is `bufferSize` rows further on. */
  lemma WindowStartBand(scrollTop: real, rowHeight: Positive, bufferSize: Positive)
    ensures WindowStart(scrollTop, rowHeight, bufferSize) >= 0
    ensures var s := WindowStart(scrollTop, rowHeight, bufferSize);
      s > 0 ==> ((s + bufferSize) * rowHeight) as real <= scrollTop < ((s + bufferSize + 1) * rowHeight) as real
    ensures WindowStart(scrollTop, rowHeight, bufferSize) == 0 ==> scrollTop < ((bufferSize + 1) * rowHeight) as real
  {
    var q := FloorDiv(scrollTop, rowHeight);
    if q - bufferSize <= 0 {
      MulLe(q + 1, bufferSize + 1, rowHeight);
    }
  }

  /** The end of the window: the full size when enough rows remain, otherwise
      the end of the data. */
  lemma WindowEndSize(start: int, visibleRowCount: int, bufferSize: int, length: nat)
    ensures WindowEnd(start, visibleRowCount, bufferSize, length) <= length
    ensures length - start >= visibleRowCount + 2 * bufferSize ==>
      WindowEnd(start, visibleRowCount, bufferSize, length) - start == visibleRowCount + 2 * bufferSize
    ensures length - start < visibleRowCount + 2 * bufferSize ==>
      WindowEnd(start, visibleRowCount, bufferSize, length) == length
  {
  }

  /** `calculateVisibleRange()`: the row at the top of the viewport is
      `startIndex + bufferSize`, unless fewer than `bufferSize` rows lie above
      it; the window then reaches `visibleRowCount + 2*bufferSize` rows further,
      cut at the end of the data. It reports the new window to `onDataChange`. */
  function CalculateVisibleRange(e: Engine): (s: Step)
    ensures s.engine == e.(startIndex := s.engine.startIndex, endIndex := s.engine.endIndex)
    ensures s.engine.startIndex >= 0
    ensures s.engine.endIndex <= |e.filtered|
    ensures s.engine.startIndex > 0 ==>
      ((s.engine.startIndex + e.bufferSize) * e.rowHeight) as real <= e.scrollTop
      < ((s.engine.startIndex + e.bufferSize + 1) * e.rowHeight) as real
    ensures s.engine.startIndex == 0 ==> e.scrollTop < ((e.bufferSize + 1) * e.rowHeight) as real
    ensures |e.filtered| - s.engine.startIndex >= e.visibleRowCount + 2 * e.bufferSize ==>
      s.engine.endIndex - s.engine.startIndex == e.visibleRowCount + 2 * e.bufferSize
    ensures |e.filtered| - s.engine.startIndex < e.visibleRowCount + 2 * e.bufferSize ==>
      s.engine.endIndex == |e.filtered|
    ensures s.notices == [DataChanged(s.engine.startIndex, s.engine.endIndex, GetVisibleData(s.engine),
                                      e.scrollTop, e.scrollLeft)]
  {
    var start := WindowStart(e.scrollTop, e.rowHeight, e.bufferSize);
    var end := WindowEnd(start, e.visibleRowCount, e.bufferSize, |e.filtered|);
    WindowStartBand(e.scrollTop, e.rowHeight, e.bufferSize);
    WindowEndSize(start, e.visibleRowCount, e.bufferSize, |e.filtered|);
    var e' := e.(startIndex := start, endIndex := end);
    Step(e', [DataChanged(start, end, GetVisibleData(e'), e.scrollTop, e.scrollLeft)])
  }

  /** The derived fields agree with the data and the geometry: what
      `updateDimensions` followed by `calculateVisibleRange` establishes. */
  ghost predicate Consistent(e: Engine)
  {
    && e.containerHeight > 0 && e.containerWidth > 0
    && e.visibleRowCount == CeilDiv(e.containerHeight - e.headerHeight, e.rowHeight)
    && e.totalHeight == e.headerHeight + |e.filtered| * e.rowHeight
    && e.totalWidth == TotalWidth(e.columns)
    && e.startIndex == WindowStart(e.scrollTop, e.rowHeight, e.bufferSize)
    && e.endIndex == WindowEnd(e.startIndex, e.visibleRowCount, e.bufferSize, |e.filtered|)
  }

  /** Both scroll offsets lie within `[0, max]`. */
  ghost predicate InBounds(e: Engine)
  {
    && 0.0 <= e.scrollTop <= MaxScrollTop(e) as real
    && 0.0 <= e.scrollLeft <= MaxScrollLeft(e) as real
  }

  lemma FactorBound(q: int, n: int, d: int)
    requires d > 0 && q * d <= n * d
    ensures q <= n
  {
  }

  /** An in-bounds offset with a container at least as tall as the header never
      scrolls past the last row's top. */
  lemma InBoundsBelowContent(e: Engine)
    requires InBounds(e)
    requires e.totalHeight == e.headerHeight + |e.filtered| * e.rowHeight
    requires e.containerHeight >= e.headerHeight
    ensures 0.0 <= e.scrollTop <= (|e.filtered| * e.rowHeight) as real
  {
    assert MaxScrollTop(e) <= |e.filtered| * e.rowHeight;
  }

  /** A window computed from an offset within the content is an ordinary slice
      of the filtered rows (the offset bound is what `InBoundsBelowContent`
      gives a consistent engine). */
  lemma WindowOrdered(e: Engine)
    requires e.startIndex == WindowStart(e.scrollTop, e.rowHeight, e.bufferSize)
    requires e.endIndex == WindowEnd(e.startIndex, e.visibleRowCount, e.bufferSize, |e.filtered|)
    requires e.visibleRowCount >= 0
    requires 0.0 <= e.scrollTop <= (|e.filtered| * e.rowHeight) as real
    ensures 0 <= e.startIndex <= e.endIndex <= |e.filtered|
    ensures GetVisibleData(e) == e.filtered[e.startIndex..e.endIndex]
    ensures |e.filtered| - e.startIndex >= e.visibleRowCount + 2 * e.bufferSize ==>
      e.endIndex - e.startIndex == e.visibleRowCount + 2 * e.bufferSize
  {
    var q := FloorDiv(e.scrollTop, e.rowHeight);
    FactorBound(q, |e.filtered|, e.rowHeight);
  }

  // ---------------------------------------------------------------------------
  // Construction, data and filter
  // ---------------------------------------------------------------------------

  /** Measuring a container and computing the window from the origin yields a
      consistent, in-bounds engine. */
  lemma RemeasuredAtOrigin(e: Engine, measured: Option<Size>)
    requires e.scrollTop == 0.0 && e.scrollLeft == 0.0
    ensures measured.Some? ==> Consistent(CalculateVisibleRange(UpdateDimensions(e, measured)).engine)
    ensures measured.Some? ==> InBounds(CalculateVisibleRange(UpdateDimensions(e, measured)).engine)
  {
    TotalWidthIsPrefix(e.columns);
  }

  /** The constructor's assignments before `init()`: defaults for the missing
      options, both record sequences set to the given data, everything else
      zero. */
  function Unmeasured(o: Options): (e: Engine)
    ensures e.data == o.data && e.filtered == o.data
    ensures e.rowHeight == (if o.rowHeight == 0 then 40 else o.rowHeight)
    ensures e.headerHeight == (if o.headerHeight == 0 then 45 else o.headerHeight)
    ensures e.bufferSize == (if o.bufferSize == 0 then 5 else o.bufferSize)
    ensures e.columns == (if o.columns.Some? then o.columns.value else DefaultColumns)
    ensures e.scrollTop == 0.0 && e.scrollLeft == 0.0
  {
    Engine(
      o.data, o.data,
      if o.rowHeight == 0 then 40 else o.rowHeight,
      if o.headerHeight == 0 then 45 else o.headerHeight,
      if o.bufferSize == 0 then 5 else o.bufferSize,
      if o.columns.Some? then o.columns.value else DefaultColumns,
      0, 0.0, 0.0, 0, 0, 0, 0, 0, 0)
  }

  /** `new VirtualScrollManager(options)`: the constructor's assignments, then
      `init()` (`updateDimensions` and `calculateVisibleRange`). */
  function NewEngine(o: Options, measured: Option<Size>): (s: Step)
    ensures s.engine.data == o.data && s.engine.filtered == o.data
    ensures s.engine.rowHeight == (if o.rowHeight == 0 then 40 else o.rowHeight)
    ensures s.engine.headerHeight == (if o.headerHeight == 0 then 45 else o.headerHeight)
    ensures s.engine.bufferSize == (if o.bufferSize == 0 then 5 else o.bufferSize)
    ensures s.engine.columns == (if o.columns.Some? then o.columns.value else DefaultColumns)
    ensures s.engine.scrollTop == 0.0 && s.engine.scrollLeft == 0.0
    ensures s.engine.startIndex == 0
    ensures measured.Some? ==> Consistent(s.engine) && InBounds(s.engine)
    ensures s.notices == [DataChanged(0, s.engine.endIndex, GetVisibleData(s.engine), 0.0, 0.0)]
  {
    var e := Unmeasured(o);
    var d := UpdateDimensions(e, measured);
    FloorDivUnique(0.0, d.rowHeight, 0);
    RemeasuredAtOrigin(e, measured);
    CalculateVisibleRange(d)
  }

  /** `setData(data)`: both sequences become `data`; geometry and window are
      recomputed but the scroll offsets are kept. */
  function SetData(e: Engine, data: seq<Record>, measured: Option<Size>): (s: Step)
    ensures s.engine.data == data && s.engine.filtered == data
    ensures s.engine.scrollTop == e.scrollTop && s.engine.scrollLeft == e.scrollLeft
    ensures s.engine.endIndex <= |data|
    ensures measured.Some? ==> s.engine.totalHeight == e.headerHeight + |data| * e.rowHeight
    ensures s.engine.rowHeight == e.rowHeight && s.engine.headerHeight == e.headerHeight
    ensures s.engine.bufferSize == e.bufferSize && s.engine.columns == e.columns
    // with a container the geometry is re-measured and agrees with the new data
    ensures measured.Some? ==> Consistent(s.engine)
    // without one the old geometry stays, and only the window moves
    ensures measured.None? ==>
      && s.engine.containerHeight == e.containerHeight && s.engine.containerWidth == e.containerWidth
      && s.engine.visibleRowCount == e.visibleRowCount
      && s.engine.totalHeight == e.totalHeight && s.engine.totalWidth == e.totalWidth
    // either way the window is recomputed for the kept offset and the new length
    ensures s.engine.startIndex == WindowStart(e.scrollTop, e.rowHeight, e.bufferSize)
    ensures s.engine.endIndex == WindowEnd(s.engine.startIndex, s.engine.visibleRowCount, e.bufferSize, |data|)
    ensures s.notices == [DataChanged(s.engine.startIndex, s.engine.endIndex, GetVisibleData(s.engine),
                                      e.scrollTop, e.scrollLeft)]
  {
    CalculateVisibleRange(UpdateDimensions(e.(data := data, filtered := data), measured))
  }

  /** `filterData(filters)` either completes or throws before changing anything. */
  datatype FilterOutcome = Applied(step: Step) | Aborted

  /** `filterData(filters)`: the filtered sequence is recomputed from the base
      sequence, both offsets return to 0, and geometry and window follow. */
  function FilterData(e: Engine, f: Filters, measured: Option<Size>): (o: FilterOutcome)
    ensures o == Aborted <==> exists i :: 0 <= i < |e.data| && Check(e.data[i], f) == Fault
    ensures o.Applied? ==>
      && o.step.engine.data == e.data
      && o.step.engine.filtered == FilterRecords(e.data, f).records
      && o.step.engine.scrollTop == 0.0 && o.step.engine.scrollLeft == 0.0
      && o.step.engine.startIndex == 0
      && |o.step.notices| == 1 && o.step.notices[0].DataChanged?
  {
    match FilterRecords(e.data, f)
    case Threw => Aborted
    case Kept(rs) =>
      var d := UpdateDimensions(e.(filtered := rs, scrollTop := 0.0, scrollLeft := 0.0), measured);
      FloorDivUnique(0.0, d.rowHeight, 0);
      Applied(CalculateVisibleRange(d))
  }

  /** Every record `filterData` keeps matches all non-empty patterns, and every
      such record of the base data is kept, in the original order. */
  lemma FilterDataKeepsExactlyMatches(e: Engine, f: Filters, measured: Option<Size>)
    requires FilterData(e, f, measured).Applied?
    ensures forall r :: r in FilterData(e, f, measured).step.engine.filtered <==>
      r in e.data && forall i :: 0 <= i < |f| ==> Passes(r, f, i)
  {
    forall r | r in e.data {
      CheckMeaning(r, f);
    }
  }

  /** `filterData` always starts from the base data, so applying the same filter
      to its own result reproduces the same state and the same notices. */
  lemma FilterDataIdempotent(e: Engine, f: Filters, measured: Option<Size>)
    requires FilterData(e, f, measured).Applied?
    ensures FilterData(FilterData(e, f, measured).step.engine, f, measured) == FilterData(e, f, measured)
  {
    var s := FilterData(e, f, measured).step;
    var rs := FilterRecords(e.data, f).records;
    var e1 := e.(filtered := rs, scrollTop := 0.0, scrollLeft := 0.0);
    var d1 := UpdateDimensions(e1, measured);
    var e2 := s.engine.(filtered := rs, scrollTop := 0.0, scrollLeft := 0.0);
    assert UpdateDimensions(e2, measured) == d1.(startIndex := s.engine.startIndex, endIndex := s.engine.endIndex);
  }

  /** A successful filter with a present container leaves the engine consistent
      and in bounds. */
  lemma FilterDataEstablishesInvariant(e: Engine, f: Filters, measured: Option<Size>)
    requires measured.Some?
    requires FilterData(e, f, measured).Applied?
    ensures Consistent(FilterData(e, f, measured).step.engine)
    ensures InBounds(FilterData(e, f, measured).step.engine)
  {
    TotalWidthIsPrefix(e.columns);
  }

  // ---------------------------------------------------------------------------
  // Scrolling
  // ---------------------------------------------------------------------------

  /** `handleVerticalScroll(scrollTop)`: clamp into `[0, maxScrollTop]`,
      recompute the window (`onDataChange`), then report both offsets and both
      maxima (`onScroll`). */
  function HandleVerticalScroll(e: Engine, target: real): (s: Step)
    ensures 0.0 <= s.engine.scrollTop <= MaxScrollTop(e) as real
    ensures 0.0 <= target <= MaxScrollTop(e) as real ==> s.engine.scrollTop == target
    ensures target < 0.0 ==> s.engine.scrollTop == 0.0
    ensures target > MaxScrollTop(e) as real ==> s.engine.scrollTop == MaxScrollTop(e) as real
    ensures s.engine == CalculateVisibleRange(e.(scrollTop := s.engine.scrollTop)).engine
    ensures |s.notices| == 2
    ensures s.notices[0] == DataChanged(s.engine.startIndex, s.engine.endIndex, GetVisibleData(s.engine),
                                        s.engine.scrollTop, e.scrollLeft)
    ensures s.notices[1] == Scrolled(s.engine.scrollTop, e.scrollLeft, MaxScrollTop(e), MaxScrollLeft(e))
  {
    var maxTop := MaxScrollTop(e);
    var r := CalculateVisibleRange(e.(scrollTop := Clamp(target, maxTop)));
    Step(r.engine, r.notices + [Scrolled(r.engine.scrollTop, e.scrollLeft, maxTop, MaxScrollLeft(e))])
  }

  /** `handleHorizontalScroll(scrollLeft)`: clamp into `[0, maxScrollLeft]` and
      report through `onScroll` only; the row window is not recomputed. */
  function HandleHorizontalScroll(e: Engine, target: real): (s: Step)
    ensures 0.0 <= s.engine.scrollLeft <= MaxScrollLeft(e) as real
    ensures 0.0 <= target <= MaxScrollLeft(e) as real ==> s.engine.scrollLeft == target
    ensures target < 0.0 ==> s.engine.scrollLeft == 0.0
    ensures target > MaxScrollLeft(e) as real ==> s.engine.scrollLeft == MaxScrollLeft(e) as real
    ensures s.engine == e.(scrollLeft := s.engine.scrollLeft)
    ensures s.notices == [Scrolled(e.scrollTop, s.engine.scrollLeft, MaxScrollTop(e), MaxScrollLeft(e))]
  {
    var maxLeft := MaxScrollLeft(e);
    var left := Clamp(target, maxLeft);
    Step(e.(scrollLeft := left), [Scrolled(e.scrollTop, left, MaxScrollTop(e), maxLeft)])
  }

  /** Vertical scrolling keeps a consistent engine consistent and brings it in
      bounds whenever the horizontal offset already was. */
  lemma VerticalScrollPreservesInvariant(e: Engine, target: real)
    requires Consistent(e)
    requires 0.0 <= e.scrollLeft <= MaxScrollLeft(e) as real
    ensures Consistent(HandleVerticalScroll(e, target).engine)
    ensures InBounds(HandleVerticalScroll(e, target).engine)
  {
  }

  /** Horizontal scrolling cannot break consistency or bounds: it changes only
      the horizontal offset, which it clamps. */
  lemma HorizontalScrollPreservesInvariant(e: Engine, target: real)
    requires Consistent(e) && InBounds(e)
    ensures Consistent(HandleHorizontalScroll(e, target).engine)
    ensures InBounds(HandleHorizontalScroll(e, target).engine)
  {
  }

  /** `scrollTo(scrollTop, scrollLeft)`: each supplied offset is handled in turn,
      vertical first. */
  function ScrollTo(e: Engine, top: Option<real>, left: Option<real>): (s: Step)
    ensures top.None? && left.None? ==> s == Step(e, [])
    ensures top.Some? ==> s.engine.scrollTop == Clamp(top.value, MaxScrollTop(e))
    ensures left.Some? ==> s.engine.scrollLeft == Clamp(left.value, MaxScrollLeft(e))
    ensures |s.notices| == (if top.Some? then 2 else 0) + (if left.Some? then 1 else 0)
    // the vertical request is answered first, with its own two listener calls
    ensures top.Some? ==> s.notices[..2] == HandleVerticalScroll(e, top.value).notices
    ensures left.Some? ==>
      s.notices[|s.notices| - 1] == Scrolled(s.engine.scrollTop, s.engine.scrollLeft, MaxScrollTop(e), MaxScrollLeft(e))
    ensures top.Some? ==> 0.0 <= s.engine.scrollTop <= MaxScrollTop(e) as real
    ensures top.None? ==> s.engine.scrollTop == e.scrollTop
    ensures left.None? ==> s.engine.scrollLeft == e.scrollLeft
    ensures left.Some? ==> 0.0 <= s.engine.scrollLeft <= MaxScrollLeft(e) as real
  {
    var s1 := if top.Some? then HandleVerticalScroll(e, top.value) else Step(e, []);
    if left.Some? then
      var s2 := HandleHorizontalScroll(s1.engine, left.value);
      Step(s2.engine, s1.notices + s2.notices)
    else s1
  }

  /** `scrollToRow(rowIndex)`: when the row's top edge is a reachable offset the
      row lands at the top of the viewport, with the buffer rows above it as
      the start of the window. */
  function ScrollToRow(e: Engine, row: int): (s: Step)
    ensures 0.0 <= s.engine.scrollTop <= MaxScrollTop(e) as real
    ensures 0 <= row * e.rowHeight <= MaxScrollTop(e) ==>
      s.engine.scrollTop == (row * e.rowHeight) as real
      && s.engine.startIndex == MaxInt(0, row - e.bufferSize)
    ensures s.engine.scrollTop == Clamp((row * e.rowHeight) as real, MaxScrollTop(e))
    ensures s.engine.startIndex == WindowStart(s.engine.scrollTop, e.rowHeight, e.bufferSize)
    ensures |s.notices| == 2 && s.notices[0].DataChanged? && s.notices[1].Scrolled?
  {
    var s := HandleVerticalScroll(e, (row * e.rowHeight) as real);
    if 0 <= row * e.rowHeight <= MaxScrollTop(e) then
      FloorDivUnique((row * e.rowHeight) as real, e.rowHeight, row);
      s
    else s
  }

  /** `getScrollInfo()`. */
  datatype ScrollInfo = ScrollInfo(
    scrollTop: real, scrollLeft: real,
    maxScrollTop: int, maxScrollLeft: int,
    totalHeight: int, totalWidth: int,
    containerHeight: int, containerWidth: int,
    visibleRowCount: int,
    startIndex: int, endIndex: int,
    totalRows: nat)

  function GetScrollInfo(e: Engine): (info: ScrollInfo)
    ensures info.scrollTop == e.scrollTop && info.scrollLeft == e.scrollLeft
    ensures info.maxScrollTop == MaxScrollTop(e) && info.maxScrollLeft == MaxScrollLeft(e)
    ensures info.totalHeight == e.totalHeight && info.totalWidth == e.totalWidth
    ensures info.containerHeight == e.containerHeight && info.containerWidth == e.containerWidth
    ensures info.visibleRowCount == e.visibleRowCount
    ensures info.startIndex == e.startIndex && info.endIndex == e.endIndex
    // each maximum is the overflow of the content past the viewport, or 0
    ensures info.maxScrollTop >= 0 && info.maxScrollLeft >= 0
    ensures info.maxScrollTop == 0 || info.maxScrollTop == info.totalHeight - info.containerHeight
    ensures info.maxScrollLeft == 0 || info.maxScrollLeft == info.totalWidth - info.containerWidth
    ensures info.maxScrollTop >= info.totalHeight - info.containerHeight
    ensures info.maxScrollLeft >= info.totalWidth - info.containerWidth
    ensures info.totalRows == |e.filtered|
    ensures InBounds(e) ==> 0.0 <= info.scrollTop <= info.maxScrollTop as real
    ensures InBounds(e) ==> 0.0 <= info.scrollLeft <= info.maxScrollLeft as real
  {
    ScrollInfo(e.scrollTop, e.scrollLeft, MaxScrollTop(e), MaxScrollLeft(e),
               e.totalHeight, e.totalWidth, e.containerHeight, e.containerWidth,
               e.visibleRowCount, e.startIndex, e.endIndex, |e.filtered|)
  }

  /** `getVisibleColumns()` on the engine's own columns and geometry. */
  function GetVisibleColumns(e: Engine): (c: ColumnRange)
    ensures c.start <= c.end <= |e.columns|
  {
    VisibleColumns(e.columns, e.scrollLeft, e.containerWidth)
  }

  // ---------------------------------------------------------------------------
  // What the source does not promise
  // ---------------------------------------------------------------------------

  /** `setData` keeps the old offset, so replacing a long list by a short one
      can leave the window past the end: `startIndex > endIndex` and no row is
      shown although the data is not empty. */
  lemma SetDataCanLeaveWindowEmpty()
    ensures exists e: Engine, data: seq<Record> ::
      && Consistent(e) && InBounds(e) && 0 < |data|
      && SetData(e, data, Some(Size(1200, 600))).engine.startIndex
         > SetData(e, data, Some(Size(1200, 600))).engine.endIndex
      && GetVisibleData(SetData(e, data, Some(Size(1200, 600))).engine) == []
  {
    var rows: seq<Record> := seq(1000, i => map[]);
    var e0 := Engine(rows, rows, 40, 45, 5, DefaultColumns, 0, 0.0, 0.0, 0, 0, 0, 0, 0, 0);
    var e1 := UpdateDimensions(e0, Some(Size(1200, 600)));
    var e := CalculateVisibleRange(e1.(scrollTop := 20000.0)).engine;
    TotalWidthIsPrefix(DefaultColumns);
    FloorDivUnique(20000.0, 40, 500);
    assert e.startIndex == 495;
    var data: seq<Record> := [map[]];
    var s := SetData(e, data, Some(Size(1200, 600)));
    assert s.engine.startIndex == 495;
    assert s.engine.endIndex == 1;
  }

  /** `updateDimensions` does not clamp: growing the container can leave the
      vertical offset beyond the new maximum. */
  lemma ResizeCanLeaveOffsetOutOfBounds()
    ensures exists e: Engine ::
      && Consistent(e) && InBounds(e)
      && !InBounds(UpdateDimensions(e, Some(Size(1200, 900))))
  {
    var rows: seq<Record> := seq(100, i => map[]);
    var e0 := Engine(rows, rows, 40, 45, 5, DefaultColumns, 0, 0.0, 0.0, 0, 0, 0, 0, 0, 0);
    var e1 := UpdateDimensions(e0, Some(Size(1200, 600)));
    TotalWidthIsPrefix(DefaultColumns);
    assert MaxScrollTop(e1) == 3445;
    var e := CalculateVisibleRange(e1.(scrollTop := 3445.0)).engine;
    assert InBounds(e);
    assert MaxScrollTop(UpdateDimensions(e, Some(Size(1200, 900)))) == 3145;
  }
}

=== FILE: hover.dfy ===
/** Hover tracking as both back-ends do it: a pointer move or a pointer leaving
    the surface updates the hovered row and draws the table again
    (canvasRenderer.js, svgRenderer.js). */
module Hover {
  import opened Engine
  import opened Render

  /** A hover change: the renderer's new state and the frame `render()` draws
      right after it. */
  datatype Redraw = Redraw(renderer: Renderer, drawing: Drawing)

  /** `mousemove` through `updateHoveredRow()`: the hover follows the pointer,
      then the table is drawn again with the pointed-at row highlighted and
      no other. */
  function PointerMove(r: Renderer, pointerY: real, e: Engine, locale: int -> string): (u: Redraw)
    ensures u.renderer == r.(hoveredRow := u.renderer.hoveredRow)
    ensures -1 <= u.renderer.hoveredRow < |e.filtered|
    ensures u.renderer.hoveredRow >= 0 ==> UnderPointer(e, pointerY, u.renderer.hoveredRow)
    ensures u.drawing == RenderFrame(u.renderer, e, locale)
    ensures u.drawing.Painted? ==>
      forall p :: p in u.drawing.frame.rows ==> (p.shade == Highlight <==> p.index == u.renderer.hoveredRow)
  {
    var r' := r.(hoveredRow := HoveredRow(pointerY, e));
    HighlightFollowsHover(r', e, locale);
    Redraw(r', RenderFrame(r', e, locale))
  }

  /** `mouseleave`: no row is hovered, and the table is drawn again without a
      highlighted row. */
  function PointerLeave(r: Renderer, e: Engine, locale: int -> string): (u: Redraw)
    ensures u.renderer.hoveredRow == -1 && u.renderer == r.(hoveredRow := -1)
    ensures u.drawing == RenderFrame(u.renderer, e, locale)
    ensures u.drawing.Painted? && e.startIndex >= 0 ==>
      forall p :: p in u.drawing.frame.rows ==> p.shade != Highlight
  {
    var r' := r.(hoveredRow := -1);
    HighlightFollowsHover(r', e, locale);
    Redraw(r', RenderFrame(r', e, locale))
  }

  /** In a drawn frame exactly the hovered row is highlighted, and every
      painted row lies at or past the window's start. */
  lemma HighlightFollowsHover(r: Renderer, e: Engine, locale: int -> string)
    ensures RenderFrame(r, e, locale).Painted? ==>
      forall p :: p in RenderFrame(r, e, locale).frame.rows ==>
        && (p.shade == Highlight <==> p.index == r.hoveredRow)
        && p.index >= e.startIndex
  {
    RenderFrameMeaning(r, e, locale);
  }
}

=== FILE: records.dfy ===
/** Row records and the per-column substring filter of `filterData`
    (virtualScroll.js): string values match case-insensitively, other values
    through their `toString()`, and an empty pattern matches everything. */
module Records {
  import opened Common

  /** A cell value: a number, a string, or absent (`null` / `undefined`). */
  datatype Value = Num(n: int) | Text(s: string) | Missing

  /** A row: column key to value. Keys it lacks read as `undefined`. */
  type Record = map<string, Value>

  /** `item[key]`. */
  function Field(r: Record, key: string): Value
  {
    if key in r then r[key] else Missing
  }

  // ---------------------------------------------------------------------------
  // String primitives: toLowerCase, includes, Number.prototype.toString
  // ---------------------------------------------------------------------------

  /** `toLowerCase` on one character; only the ASCII letters have a case here. */
  function LowerChar(c: char): char
  {
    if 'A' <= c <= 'Z' then (c as int + 32) as char else c
  }

  function Lower(s: string): (r: string)
    ensures |r| == |s|
    ensures forall i :: 0 <= i < |s| ==> r[i] == LowerChar(s[i])
  {
    if |s| == 0 then [] else [LowerChar(s[0])] + Lower(s[1..])
  }

  /** Lower-casing twice is lower-casing once. */
  lemma LowerIdempotent(s: string)
    ensures Lower(Lower(s)) == Lower(s)
  {
    assert forall i :: 0 <= i < |s| ==> LowerChar(LowerChar(s[i])) == LowerChar(s[i]);
  }

  /** `s.includes(p)`, scanning the start positions from the left. */
  function Includes(s: string, p: string): bool
    decreases |s|
  {
    if |p| <= |s| && s[..|p|] == p then true
    else if |s| == 0 then false
    else Includes(s[1..], p)
  }

  /** The position-based reading of `includes`: some window of `s` equals `p`. */
  ghost predicate OccursAt(s: string, p: string, k: int)
  {
    0 <= k && k + |p| <= |s| && s[k..k + |p|] == p
  }

  lemma {:induction false} IncludesIff(s: string, p: string)
    ensures Includes(s, p) <==> exists k :: OccursAt(s, p, k)
    decreases |s|
  {
    if |p| <= |s| && s[..|p|] == p {
      assert OccursAt(s, p, 0);
    } else if |s| == 0 {
    } else {
      IncludesIff(s[1..], p);
      if exists k :: OccursAt(s[1..], p, k) {
        var k :| OccursAt(s[1..], p, k);
        assert s[k + 1..k + 1 + |p|] == s[1..][k..k + |p|];
        assert OccursAt(s, p, k + 1);
      }
      if exists k :: OccursAt(s, p, k) {
        var k :| OccursAt(s, p, k);
        assert k != 0;
        assert s[1..][k - 1..k - 1 + |p|] == s[k..k + |p|];
        assert OccursAt(s[1..], p, k - 1);
      }
    }
  }

  /** The empty pattern occurs in every string. */
  lemma IncludesEmpty(s: string)
    ensures Includes(s, "")
  {
    assert s[..0] == "";
  }

  function DigitChar(d: int): char
    requires 0 <= d < 10
  {
    "0123456789"[d]
  }

  function DigitValue(c: char): int
  {
    if '0' <= c <= '9' then c as int - '0' as int else 0
  }

  /** Decimal digits of a natural number, most significant first. */
  function Digits(n: nat): (r: string)
    ensures |r| > 0
    decreases n
  {
    if n < 10 then [DigitChar(n)] else Digits(n / 10) + [DigitChar(n % 10)]
  }

  /** `Number.prototype.toString()` for an integer value. */
  function DecimalString(n: int): string
  {
    if n < 0 then "-" + Digits(-n) else Digits(n)
  }

  /** Reads a string of decimal digits back (the reference reading for
      `DecimalString`). */
  function ParseDigits(s: string): int
  {
    if |s| == 0 then 0 else ParseDigits(s[..|s| - 1]) * 10 + DigitValue(s[|s| - 1])
  }

  function ParseDecimal(s: string): int
  {
    if |s| > 0 && s[0] == '-' then -ParseDigits(s[1..]) else ParseDigits(s)
  }

  lemma {:induction false} DigitsRoundTrip(n: nat)
    ensures ParseDigits(Digits(n)) == n
    ensures Digits(n)[0] != '-'
    decreases n
  {
    if n >= 10 {
      DigitsRoundTrip(n / 10);
      var d := Digits(n);
      assert d[..|d| - 1] == Digits(n / 10);
    }
  }

  lemma NegativeRoundTrip(m: nat)
    ensures ParseDecimal("-" + Digits(m)) == -(m as int)
  {
    var d := Digits(m);
    DigitsRoundTrip(m);
    assert ("-" + d)[1..] == d;
  }

  lemma NonNegativeRoundTrip(m: nat)
    ensures ParseDecimal(Digits(m)) == m
  {
    DigitsRoundTrip(m);
  }

  /** The text a number is rendered and matched as reads back as that number. */
  lemma DecimalRoundTrip(n: int)
    ensures ParseDecimal(DecimalString(n)) == n
  {
    if n < 0 {
      var m: nat := -n;
      NegativeRoundTrip(m);
      assert DecimalString(n) == "-" + Digits(m);
    } else {
      NonNegativeRoundTrip(n);
      assert DecimalString(n) == Digits(n);
    }
  }

  // ---------------------------------------------------------------------------
  // The filter predicate
  // ---------------------------------------------------------------------------

  /** The filter object as its `Object.keys` order lists it: (key, pattern). */
  type Filters = seq<(string, string)>

  /** Whether one value passes one non-empty pattern; `None` when reading the
      value throws (`undefined.toString()` / `null.toString()`). Text matches
      case-insensitively; a number matches when the pattern, as typed, occurs
      in its decimal text. */
  function ValueMatches(v: Value, pattern: string): (m: Option<bool>)
    ensures m.None? <==> v.Missing?
    ensures v.Text? ==> m == Some(exists k :: OccursAt(Lower(v.s), Lower(pattern), k))
    ensures v.Num? ==> m == Some(exists k :: OccursAt(DecimalString(v.n), pattern, k))
  {
    match v
    case Text(t) =>
      var (low, pat) := (Lower(t), Lower(pattern));
      IncludesIff(low, pat);
      assert Includes(low, pat) <==> exists k :: OccursAt(Lower(v.s), Lower(pattern), k);
      Some(Includes(low, pat))
    case Num(n) => IncludesIff(DecimalString(n), pattern); Some(Includes(DecimalString(n), pattern))
    case Missing => None
  }

  /** Key `i` of the filter lets the record through: its pattern is empty, or
      the record's value matches it. */
  ghost predicate Passes(r: Record, f: Filters, i: int)
    requires 0 <= i < |f|
  {
    f[i].1 == "" || ValueMatches(Field(r, f[i].0), f[i].1) == Some(true)
  }

  /** Testing key `i` against the record throws. */
  ghost predicate Throws(r: Record, f: Filters, i: int)
    requires 0 <= i < |f|
  {
    f[i].1 != "" && ValueMatches(Field(r, f[i].0), f[i].1) == None
  }

  /** The verdict of the filter callback on one record. */
  datatype Verdict = Keep | Drop | Fault

  /** `Object.keys(filters).every(...)`: keys are tried in order, an empty
      pattern passes, the first failing key rejects the record without reading
      the later keys, and a throwing read aborts. */
  function Check(r: Record, f: Filters): Verdict
  {
    if |f| == 0 then Keep
    else if f[0].1 == "" then Check(r, f[1..])
    else
      match ValueMatches(Field(r, f[0].0), f[0].1)
      case None => Fault
      case Some(true) => Check(r, f[1..])
      case Some(false) => Drop
  }

  /** A record is kept iff every key passes, and the callback throws iff some
      key throws after all earlier keys passed. */
  lemma {:induction false} CheckMeaning(r: Record, f: Filters)
    ensures Check(r, f) == Keep <==> forall i :: 0 <= i < |f| ==> Passes(r, f, i)
    ensures Check(r, f) == Fault <==>
      exists i :: 0 <= i < |f| && Throws(r, f, i) && forall j :: 0 <= j < i ==> Passes(r, f, j)
    decreases |f|
  {
    if |f| > 0 {
      var t := f[1..];
      CheckMeaning(r, t);
      assert forall i :: 1 <= i < |f| ==> f[i] == t[i - 1];
      assert forall i :: 1 <= i < |f| ==> (Passes(r, f, i) <==> Passes(r, t, i - 1));
      assert forall i :: 1 <= i < |f| ==> (Throws(r, f, i) <==> Throws(r, t, i - 1));
      assert forall j :: 0 <= j < |t| ==> (Passes(r, t, j) <==> Passes(r, f, j + 1));
      if Passes(r, f, 0) {
        assert !Throws(r, f, 0);
        assert Check(r, f) == Check(r, t);
        if Check(r, f) == Fault {
          var k :| 0 <= k < |t| && Throws(r, t, k) && forall j :: 0 <= j < k ==> Passes(r, t, j);
          assert Throws(r, f, k + 1);
          assert forall j :: 0 <= j < k + 1 ==> Passes(r, f, j);
        }
        if exists i :: 0 <= i < |f| && Throws(r, f, i) && forall j :: 0 <= j < i ==> Passes(r, f, j) {
          var i :| 0 <= i < |f| && Throws(r, f, i) && forall j :: 0 <= j < i ==> Passes(r, f, j);
          assert i > 0;
          assert Throws(r, t, i - 1);
          assert forall j :: 0 <= j < i - 1 ==> Passes(r, t, j);
        }
      } else if Throws(r, f, 0) {
        assert Check(r, f) == Fault;
      } else {
        assert Check(r, f) == Drop;
      }
    }
  }

  /** `data.filter(callback)`: records are tested front to back; a throwing test
      aborts the whole call, otherwise the passing records are kept in order. */
  datatype Filtered = Kept(records: seq<Record>) | Threw

  /** The records a non-throwing `data.filter` keeps, in order. */
  function Survivors(data: seq<Record>, f: Filters): seq<Record>
  {
    if |data| == 0 then []
    else if Check(data[0], f) == Keep then [data[0]] + Survivors(data[1..], f)
    else Survivors(data[1..], f)
  }

  function FilterRecords(data: seq<Record>, f: Filters): (out: Filtered)
    ensures out == Threw <==> exists i :: 0 <= i < |data| && Check(data[i], f) == Fault
    ensures out.Kept? ==> out.records == Survivors(data, f)
    ensures out.Kept? ==> |out.records| <= |data|
    ensures out.Kept? ==> forall r :: r in out.records <==> r in data && Check(r, f) == Keep
  {
    if |data| == 0 then Kept([])
    else
      var v := Check(data[0], f);
      if v == Fault then Threw
      else
        var rest := FilterRecords(data[1..], f);
        assert forall i :: 1 <= i < |data| ==> data[i] == data[1..][i - 1];
        assert forall r :: r in data <==> r == data[0] || r in data[1..];
        match rest
        case Threw =>
          assert exists i :: 0 <= i < |data| - 1 && Check(data[1..][i], f) == Fault;
          Threw
        case Kept(rs) => Kept(if v == Keep then [data[0]] + rs else rs)
  }

  lemma TailOfConcat<T>(a: seq<T>, b: seq<T>)
    requires |a| > 0
    ensures (a + b)[0] == a[0] && (a + b)[1..] == a[1..] + b
  {
  }

  lemma {:induction false} SurvivorsConcat(a: seq<Record>, b: seq<Record>, f: Filters)
    ensures Survivors(a + b, f) == Survivors(a, f) + Survivors(b, f)
    decreases |a|
  {
    if |a| > 0 {
      TailOfConcat(a, b);
      SurvivorsConcat(a[1..], b, f);
      if Check(a[0], f) == Keep {
        assert [a[0]] + (Survivors(a[1..], f) + Survivors(b, f))
            == ([a[0]] + Survivors(a[1..], f)) + Survivors(b, f);
      }
    } else {
      assert a + b == b;
    }
  }

  /** Filtering keeps the original order: it distributes over concatenation. */
  lemma FilterConcat(a: seq<Record>, b: seq<Record>, f: Filters)
    requires FilterRecords(a, f).Kept? && FilterRecords(b, f).Kept?
    ensures FilterRecords(a + b, f) == Kept(FilterRecords(a, f).records + FilterRecords(b, f).records)
  {
    SurvivorsConcat(a, b, f);
    var ab := a + b;
    assert forall i :: 0 <= i < |ab| ==> ab[i] in a || ab[i] in b;
  }

  /** A filter whose patterns are all empty keeps every record. */
  ghost predicate AllBlank(f: Filters)
  {
    forall i :: 0 <= i < |f| ==> f[i].1 == ""
  }

  lemma {:induction false} BlankFilterKeepsAll(data: seq<Record>, f: Filters)
    requires AllBlank(f)
    ensures FilterRecords(data, f) == Kept(data)
    decreases |data|
  {
    if |data| > 0 {
      CheckMeaning(data[0], f);
      BlankFilterKeepsAll(data[1..], f);
      assert [data[0]] + data[1..] == data;
    }
  }

  /** Filtering an already filtered sequence with the same filter changes
      nothing. */
  lemma {:induction false} FilterIdempotent(data: seq<Record>, f: Filters)
    requires FilterRecords(data, f).Kept?
    ensures FilterRecords(FilterRecords(data, f).records, f) == FilterRecords(data, f)
    decreases |data|
  {
    if |data| > 0 {
      FilterIdempotent(data[1..], f);
      var rs := FilterRecords(data[1..], f).records;
      if Check(data[0], f) == Keep {
        assert ([data[0]] + rs)[1..] == rs;
        assert ([data[0]] + rs)[0] == data[0];
      }
    }
  }
}

=== FILE: render.dfy ===
/** The render decisions shared by the two back-ends, `CanvasRenderer`
    (canvasRenderer.js) and `SvgRenderer` (svgRenderer.js). The two files run
    the same algorithms over the same engine state and differ only in their
    drawing primitives, so one model serves both; the back-end tag selects the
    few places where they differ (surface size fallback, the SVG group check).
    A frame is modelled as the list of things drawn: header labels, painted
    rows with their cell texts, and vertical border positions. */
module Render {
  import opened Common
  import opened Columns
  import opened Records
  import opened Engine

  const CellPadding := 12

  /** The drawing surface's logical size: `canvas.width / devicePixelRatio` or
      the SVG `width`/`height` attributes. */
  datatype Surface = Surface(width: int, height: int)

  /** A back-end's own state: its surface, its hovered row (-1 for none) and,
      for SVG, whether the header/body/border groups exist. */
  datatype Renderer = Renderer(kind: Backend, surface: Surface, hoveredRow: int, groupsReady: bool)

  /** `setupCanvas()` / `setupSvg()`: the canvas takes the container's size as
      measured; SVG falls back to 1200 x 600 for a zero extent. */
  function SetupSurface(kind: Backend, rect: Size): (s: Surface)
    ensures kind == Canvas ==> s == Surface(rect.width, rect.height)
    ensures kind == Svg ==> s.width > 0 && s.height > 0
    ensures kind == Svg ==> s.width == (if rect.width == 0 then 1200 else rect.width)
    ensures kind == Svg ==> s.height == (if rect.height == 0 then 600 else rect.height)
  {
    match kind
    case Canvas => Surface(rect.width, rect.height)
    case Svg => Surface(if rect.width == 0 then 1200 else rect.width, if rect.height == 0 then 600 else rect.height)
  }

  /** The constructor: surface set up, nothing hovered, SVG groups created. */
  function NewRenderer(kind: Backend, rect: Size): (r: Renderer)
    ensures r.kind == kind && r.hoveredRow == -1 && r.groupsReady
    ensures r.surface == SetupSurface(kind, rect)
  {
    Renderer(kind, SetupSurface(kind, rect), -1, true)
  }

  // ---------------------------------------------------------------------------
  // Pointer and wheel input
  // ---------------------------------------------------------------------------

  /** Row `k` lies under a pointer at height `pointerY`: the pointer is below
      the header and inside row `k`'s band of the scrolled body. */
  ghost predicate UnderPointer(e: Engine, pointerY: real, k: int)
  {
    && e.headerHeight as real <= pointerY
    && (k * e.rowHeight) as real <= pointerY - e.headerHeight as real + e.scrollTop
    && pointerY - e.headerHeight as real + e.scrollTop < ((k + 1) * e.rowHeight) as real
  }

  /** `updateHoveredRow()`: the absolute row under the pointer, or -1 above the
      body or past the last row. */
  function HoveredRow(pointerY: real, e: Engine): (r: int)
    ensures -1 <= r < |e.filtered|
    ensures r >= 0 ==> UnderPointer(e, pointerY, r)
  {
    if pointerY < e.headerHeight as real then -1
    else
      var k := FloorDiv(pointerY - e.headerHeight as real + e.scrollTop, e.rowHeight);
      if 0 <= k < |e.filtered| then k else -1
  }

  /** The hovered row is exactly the existing row under the pointer, and -1
      means no existing row is under it. */
  lemma HoveredRowExact(e: Engine, pointerY: real, k: int)
    requires 0 <= k < |e.filtered|
    ensures HoveredRow(pointerY, e) == k <==> UnderPointer(e, pointerY, k)
    ensures HoveredRow(pointerY, e) == -1 ==> !UnderPointer(e, pointerY, k)
  {
    if UnderPointer(e, pointerY, k) {
      FloorDivUnique(pointerY - e.headerHeight as real + e.scrollTop, e.rowHeight, k);
    }
  }

  /** The wheel handler: the axis with the larger delta magnitude wins; a tie
      goes to the horizontal axis. */
  function WheelAxis(deltaX: real, deltaY: real): (a: Axis)
    ensures a == Vertical <==> AbsReal(deltaY) > AbsReal(deltaX)
    ensures a == Horizontal <==> AbsReal(deltaY) <= AbsReal(deltaX)
  {
    if AbsReal(deltaY) > AbsReal(deltaX) then Vertical else Horizontal
  }

  /** One wheel event scrolls exactly one axis by its delta; the other offset
      (and, for a horizontal move, the row window) stays put. */
  function Wheel(e: Engine, deltaX: real, deltaY: real): (s: Step)
    ensures WheelAxis(deltaX, deltaY) == Vertical ==>
      && s == HandleVerticalScroll(e, e.scrollTop + deltaY)
      && s.engine.scrollLeft == e.scrollLeft
    ensures WheelAxis(deltaX, deltaY) == Horizontal ==>
      && s == HandleHorizontalScroll(e, e.scrollLeft + deltaX)
      && s.engine.scrollTop == e.scrollTop
      && s.engine.startIndex == e.startIndex && s.engine.endIndex == e.endIndex
  {
    match WheelAxis(deltaX, deltaY)
    case Vertical => HandleVerticalScroll(e, e.scrollTop + deltaY)
    case Horizontal => HandleHorizontalScroll(e, e.scrollLeft + deltaX)
  }

  // ---------------------------------------------------------------------------
  // Rows
  // ---------------------------------------------------------------------------

  /** `headerHeight + actualRowIndex * rowHeight - scrollTop`. */
  function RowTop(e: Engine, index: int): real
  {
    (e.headerHeight + index * e.rowHeight) as real - e.scrollTop
  }

  /** The defensive skip test: the row's band ends above the body or starts
      below the surface. */
  predicate SkipRow(e: Engine, index: int, surfaceHeight: int)
  {
    RowTop(e, index) + e.rowHeight as real < e.headerHeight as real
    || RowTop(e, index) > surfaceHeight as real
  }

  /** Rows further down start further down. */
  lemma RowTopMonotone(e: Engine, a: int, b: int)
    requires a <= b
    ensures RowTop(e, a) <= RowTop(e, b)
  {
    var d := b - a;
    assert d * e.rowHeight >= 0;
    assert b * e.rowHeight == a * e.rowHeight + d * e.rowHeight;
  }

  /** The row under the viewport's top edge, `floor(scrollTop / rowHeight)`,
      starts less than one row above the header's bottom edge and not below it,
      so it is the first row whose band reaches into the body. */
  lemma TopRowStraddlesHeader(e: Engine)
    ensures var top := RowTop(e, FloorDiv(e.scrollTop, e.rowHeight));
      (e.headerHeight - e.rowHeight) as real < top <= e.headerHeight as real
  {
    var q := FloorDiv(e.scrollTop, e.rowHeight);
    assert (e.headerHeight + q * e.rowHeight) as real == e.headerHeight as real + (q * e.rowHeight) as real;
    assert ((q + 1) * e.rowHeight) as real == (q * e.rowHeight) as real + e.rowHeight as real;
  }

  /** The drawn rows form one run: a row between two drawn rows is drawn. */
  lemma DrawnRowsContiguous(e: Engine, i: int, j: int, k: int, surfaceHeight: int)
    requires i <= j <= k
    requires !SkipRow(e, i, surfaceHeight) && !SkipRow(e, k, surfaceHeight)
    ensures !SkipRow(e, j, surfaceHeight)
  {
    RowTopMonotone(e, i, j);
    RowTopMonotone(e, j, k);
  }

  /** The hovered row is never skipped while the pointer is on the surface: its
      band contains the pointer, which lies between the header and the bottom. */
  lemma HoveredRowIsDrawn(e: Engine, pointerY: real, surfaceHeight: int)
    requires pointerY <= surfaceHeight as real
    requires HoveredRow(pointerY, e) >= 0
    ensures !SkipRow(e, HoveredRow(pointerY, e), surfaceHeight)
  {
    var k := HoveredRow(pointerY, e);
    assert (e.headerHeight + k * e.rowHeight) as real == e.headerHeight as real + (k * e.rowHeight) as real;
    assert ((k + 1) * e.rowHeight) as real == (k * e.rowHeight) as real + e.rowHeight as real;
  }

  datatype Shade = Plain | Stripe | Highlight

  /** Row background: the hover colour beats the stripe. JavaScript's `%`
      keeps the dividend's sign, so only non-negative odd indices stripe. */
  function Background(index: int, hoveredRow: int): (s: Shade)
    ensures s == Highlight <==> index == hoveredRow
    ensures s == Stripe <==> index != hoveredRow && index >= 0 && index % 2 == 1
    ensures s == Plain <==> index != hoveredRow && !(index >= 0 && index % 2 == 1)
  {
    if index == hoveredRow then Highlight
    else if index >= 0 && index % 2 == 1 then Stripe
    else Plain
  }

  /** Neighbouring rows that are not hovered alternate between the two colours. */
  lemma {:induction false} StripesAlternate(index: nat, hoveredRow: int)
    requires index != hoveredRow && index + 1 != hoveredRow
    ensures Background(index, hoveredRow) != Background(index + 1, hoveredRow)
    ensures Background(index, hoveredRow) != Highlight
  {
    assert index % 2 == 1 <==> (index + 1) % 2 == 0;
  }

  /** Cell formatting: `salary` gets the currency prefix and the locale string
      (`toLocaleString` is the `locale` parameter for numbers; a string is its
      own locale string), other numbers their `toString()`, and an absent value
      the empty string. `None` is the TypeError of reading `toLocaleString` on
      an absent salary. */
  function FormatCell(key: string, v: Value, locale: int -> string): (r: Option<string>)
    ensures r.None? <==> key == "salary" && v == Missing
    ensures key == "salary" && v.Num? ==> r == Some("¥" + locale(v.n))
    ensures key == "salary" && v.Text? ==> r == Some("¥" + v.s)
    ensures key != "salary" && v.Text? ==> r == Some(v.s)
    ensures key != "salary" && v == Missing ==> r == Some("")
    ensures key != "salary" && v.Num? ==> r == Some(DecimalString(v.n))
    ensures key != "salary" && v.Num? ==> r.Some? && ParseDecimal(r.value) == v.n
  {
    if key == "salary" then
      match v
      case Num(n) => Some("¥" + locale(n))
      case Text(s) => Some("¥" + s)
      case Missing => None
    else
      match v
      case Num(n) => DecimalRoundTrip(n); Some(DecimalString(n))
      case Text(s) => Some(s)
      case Missing => Some("")
  }

  /** The width a cell's text is clipped to. */
  function ClipWidth(col: Column): int
  {
    col.width - 2 * CellPadding
  }

  // ---------------------------------------------------------------------------
  // Horizontal placement
  // ---------------------------------------------------------------------------

  /** The x positions the render loops visit: starting from `x` at column `i`,
      each column advances the position by its width. Column `i + k` is found at
      `x` plus the widths between them. */
  function ColumnXs(cols: seq<Column>, i: nat, end: nat, x: real): (xs: seq<real>)
    requires i <= end <= |cols|
    ensures |xs| == end - i
    ensures forall k :: 0 <= k < |xs| ==> xs[k] == x + (Prefix(cols, i + k) - Prefix(cols, i)) as real
    decreases end - i
  {
    if i == end then []
    else
      var rest := ColumnXs(cols, i + 1, end, x + cols[i].width as real);
      assert Prefix(cols, i + 1) == Prefix(cols, i) + cols[i].width;
      [x] + rest
  }

  /** Where the render loops start: `-scrollLeft` plus the widths of the columns
      before the first visible one. */
  function FirstX(e: Engine, start: nat): real
    requires start <= |e.columns|
  {
    Prefix(e.columns, start) as real - e.scrollLeft
  }

  datatype Label = Label(x: real, text: string)

  /** `renderHeader()`: one title per visible column. Column `i` starts at
      `prefix(i) - scrollLeft`, and its title sits one padding to the right. */
  function HeaderLabels(e: Engine): (ls: seq<Label>)
    ensures var c := GetVisibleColumns(e);
      && |ls| == c.end - c.start
      && forall k :: 0 <= k < |ls| ==>
           ls[k] == Label(Prefix(e.columns, c.start + k) as real - e.scrollLeft + CellPadding as real,
                          e.columns[c.start + k].title)
  {
    var c := GetVisibleColumns(e);
    var xs := ColumnXs(e.columns, c.start, c.end, FirstX(e, c.start));
    seq(|xs|, k requires 0 <= k < |xs| => Label(xs[k] + CellPadding as real, e.columns[c.start + k].title))
  }

  /** The loop of `renderBorders()` over `i` in `[start, end]` (inclusive): a
      line at `x` when it lies on the surface, then `x` advances by
      `columns[i].width` only while `i < columns.length`. */
  function BorderLoop(cols: seq<Column>, i: nat, end: nat, x: real, width: int): (xs: seq<real>)
    requires i <= end + 1 && end <= |cols|
    ensures |xs| <= end + 1 - i
    ensures forall v :: v in xs ==> 0.0 <= v <= width as real
    decreases end + 1 - i
  {
    if i > end then []
    else
      var here := if 0.0 <= x <= width as real then [x] else [];
      var next := if i < |cols| then x + cols[i].width as real else x;
      here + BorderLoop(cols, i + 1, end, next, width)
  }

  /** A line is drawn at `v` exactly when `v` is one of the boundaries
      `i..end`, shifted so that boundary `i` sits at `x`, and lies on the
      surface. */
  lemma {:induction false} BorderLoopMeaning(cols: seq<Column>, i: nat, end: nat, x: real, width: int, v: real)
    requires i <= end + 1 && end <= |cols|
    ensures v in BorderLoop(cols, i, end, x, width) <==>
      exists j :: i <= j <= end && v == x + (Prefix(cols, j) - Prefix(cols, i)) as real && 0.0 <= v <= width as real
    decreases end + 1 - i
  {
    if i <= end {
      var next := if i < |cols| then x + cols[i].width as real else x;
      BorderLoopMeaning(cols, i + 1, end, next, width, v);
      assert BorderLoop(cols, i, end, x, width)
          == (if 0.0 <= x <= width as real then [x] else []) + BorderLoop(cols, i + 1, end, next, width);
      if i < end {
        assert Prefix(cols, i + 1) == Prefix(cols, i) + cols[i].width;
        assert forall j :: i + 1 <= j <= end ==>
          next + (Prefix(cols, j) - Prefix(cols, i + 1)) as real == x + (Prefix(cols, j) - Prefix(cols, i)) as real;
      }
      if exists j :: i <= j <= end && v == x + (Prefix(cols, j) - Prefix(cols, i)) as real && 0.0 <= v <= width as real {
        var j :| i <= j <= end && v == x + (Prefix(cols, j) - Prefix(cols, i)) as real && 0.0 <= v <= width as real;
        if j > i {
          assert v == next + (Prefix(cols, j) - Prefix(cols, i + 1)) as real;
        }
      }
    }
  }

  /** `renderBorders()`: the vertical lines sit exactly on the boundaries
      `prefix(j) - scrollLeft`, `j` in `[start, end]`, that fall on the surface. */
  function BorderXs(e: Engine, surfaceWidth: int): (xs: seq<real>)
    ensures forall v :: 0.0 <= v <= surfaceWidth as real || v !in xs
  {
    var c := GetVisibleColumns(e);
    BorderLoop(e.columns, c.start, c.end, FirstX(e, c.start), surfaceWidth)
  }

  lemma BorderXsExact(e: Engine, surfaceWidth: int, v: real)
    ensures var c := GetVisibleColumns(e);
      v in BorderXs(e, surfaceWidth) <==>
        exists j :: c.start <= j <= c.end && v == Prefix(e.columns, j) as real - e.scrollLeft && 0.0 <= v <= surfaceWidth as real
  {
    var c := GetVisibleColumns(e);
    BorderLoopMeaning(e.columns, c.start, c.end, FirstX(e, c.start), surfaceWidth, v);
  }

  // ---------------------------------------------------------------------------
  // The frame
  // ---------------------------------------------------------------------------

  /** A cell's text before clipping, where it is drawn and the width
      `clipText` confines it to. */
  datatype CellText = CellText(x: real, text: string, maxWidth: int)

  datatype RowPaint = RowPaint(index: int, y: real, shade: Shade, cells: seq<CellText>)

  /** The cells of one row over the visible columns `cols`, the k-th drawn at
      `xs[k]`; `None` when formatting throws. */
  function RowCells(row: Record, cols: seq<Column>, xs: seq<real>, locale: int -> string)
    : (cs: Option<seq<CellText>>)
    requires |xs| == |cols|
    ensures cs.None? <==> exists k :: 0 <= k < |cols| && FormatCell(cols[k].key, Field(row, cols[k].key), locale).None?
    ensures cs.Some? ==> |cs.value| == |cols| && forall k :: 0 <= k < |cols| ==>
      && cs.value[k].x == xs[k] + CellPadding as real
      && cs.value[k].maxWidth == ClipWidth(cols[k])
      && Some(cs.value[k].text) == FormatCell(cols[k].key, Field(row, cols[k].key), locale)
    decreases |xs|
  {
    if |xs| == 0 then Some([])
    else
      var col := cols[0];
      var rest := RowCells(row, cols[1..], xs[1..], locale);
      assert forall k :: 1 <= k < |cols| ==> cols[k] == cols[1..][k - 1];
      match FormatCell(col.key, Field(row, col.key), locale)
      case None => None
      case Some(text) =>
        match rest
        case None =>
          var k :| 0 <= k < |cols| - 1 && FormatCell(cols[1..][k].key, Field(row, cols[1..][k].key), locale).None?;
          assert cols[k + 1] == cols[1..][k];
          None
        case Some(cells) => Some([CellText(xs[0] + CellPadding as real, text, ClipWidth(col))] + cells)
  }

  /** The visible columns, in drawing order. */
  function VisibleCols(e: Engine): (cols: seq<Column>)
    ensures var c := GetVisibleColumns(e); cols == e.columns[c.start..c.end]
  {
    var c := GetVisibleColumns(e);
    e.columns[c.start..c.end]
  }

  /** Where each visible column starts: `-scrollLeft` plus the widths of all
      columns before it. */
  function CellXs(e: Engine): (xs: seq<real>)
    ensures |xs| == |VisibleCols(e)|
    ensures forall k :: 0 <= k < |xs| ==>
      xs[k] == Prefix(e.columns, GetVisibleColumns(e).start + k) as real - e.scrollLeft
  {
    var c := GetVisibleColumns(e);
    ColumnXs(e.columns, c.start, c.end, FirstX(e, c.start))
  }

  /** `p` is how `renderRows()` paints `row` at absolute index `p.index`: the
      row is on the surface, its band starts at `RowTop`, its background
      follows the hover and the stripes, and its cells are the row's
      formatted values over the visible columns `cols`, the k-th starting at
      `xs[k]`. */
  ghost predicate PaintedAs(e: Engine, cols: seq<Column>, xs: seq<real>, row: Record, p: RowPaint,
                            surfaceHeight: int, hoveredRow: int, locale: int -> string)
  {
    && !SkipRow(e, p.index, surfaceHeight)
    && p.y == RowTop(e, p.index)
    && p.shade == Background(p.index, hoveredRow)
    && |xs| == |cols|
    && Some(p.cells) == RowCells(row, cols, xs, locale)
  }

  /** `p` paints one of the visible records from the k-th on, the one at its
      own index. */
  ghost predicate PaintedAt(e: Engine, cols: seq<Column>, xs: seq<real>, visible: seq<Record>,
                            k: nat, surfaceHeight: int, hoveredRow: int, locale: int -> string, p: RowPaint)
  {
    && e.startIndex + k <= p.index < e.startIndex + |visible|
    && PaintedAs(e, cols, xs, visible[p.index - e.startIndex], p, surfaceHeight, hoveredRow, locale)
  }

  /** Every row in `rows` is one of the visible records from the k-th on,
      painted as `renderRows()` paints it. */
  ghost predicate RowsPainted(e: Engine, cols: seq<Column>, xs: seq<real>, visible: seq<Record>,
                              k: nat, surfaceHeight: int, hoveredRow: int,
                              locale: int -> string, rows: seq<RowPaint>)
  {
    forall i :: 0 <= i < |rows| ==> PaintedAt(e, cols, xs, visible, k, surfaceHeight, hoveredRow, locale, rows[i])
  }

  lemma PaintedAtEarlier(e: Engine, cols: seq<Column>, xs: seq<real>, visible: seq<Record>,
                         k: nat, surfaceHeight: int, hoveredRow: int, locale: int -> string, p: RowPaint)
    requires PaintedAt(e, cols, xs, visible, k + 1, surfaceHeight, hoveredRow, locale, p)
    ensures PaintedAt(e, cols, xs, visible, k, surfaceHeight, hoveredRow, locale, p)
  {
  }

  /** The rows are painted in increasing index order, each at most once. */
  ghost predicate Increasing(rows: seq<RowPaint>)
  {
    forall i, j :: 0 <= i < j < |rows| ==> rows[i].index < rows[j].index
  }

  /** Every visible record from the k-th on that is not skipped is painted. */
  ghost predicate RowsCover(e: Engine, visible: seq<Record>, k: nat, surfaceHeight: int, rows: seq<RowPaint>)
  {
    forall index :: e.startIndex + k <= index < e.startIndex + |visible| && !SkipRow(e, index, surfaceHeight) ==>
      exists i :: 0 <= i < |rows| && rows[i].index == index
  }

  /** `rows` is what `renderRows()` paints for the visible records from the
      k-th on: every row that is not skipped, each once, in order. */
  ghost predicate PaintsRows(e: Engine, cols: seq<Column>, xs: seq<real>, visible: seq<Record>,
                             k: nat, surfaceHeight: int, hoveredRow: int,
                             locale: int -> string, rows: seq<RowPaint>)
    requires k <= |visible|
  {
    && RowsPainted(e, cols, xs, visible, k, surfaceHeight, hoveredRow, locale, rows)
    && Increasing(rows)
    && RowsCover(e, visible, k, surfaceHeight, rows)
  }

  /** The j-th visible record is drawn, and formatting one of its cells throws. */
  ghost predicate ThrowsAt(e: Engine, cols: seq<Column>, xs: seq<real>, visible: seq<Record>,
                           j: int, surfaceHeight: int, locale: int -> string)
    requires 0 <= j < |visible|
  {
    && !SkipRow(e, e.startIndex + j, surfaceHeight)
    && |xs| == |cols|
    && RowCells(visible[j], cols, xs, locale).None?
  }

  /** A skipped record adds nothing to the rows painted after it. */
  lemma PaintsRowsSkip(e: Engine, cols: seq<Column>, xs: seq<real>, visible: seq<Record>,
                       k: nat, surfaceHeight: int, hoveredRow: int,
                       locale: int -> string, rows: seq<RowPaint>)
    requires k < |visible| && SkipRow(e, e.startIndex + k, surfaceHeight)
    requires PaintsRows(e, cols, xs, visible, k + 1, surfaceHeight, hoveredRow, locale, rows)
    ensures PaintsRows(e, cols, xs, visible, k, surfaceHeight, hoveredRow, locale, rows)
  {
    forall index | e.startIndex + k <= index < e.startIndex + |visible| && !SkipRow(e, index, surfaceHeight)
      ensures exists i :: 0 <= i < |rows| && rows[i].index == index
    {
      assert index != e.startIndex + k;
    }
  }

  lemma ConsPainted(e: Engine, cols: seq<Column>, xs: seq<real>, visible: seq<Record>,
                    k: nat, surfaceHeight: int, hoveredRow: int,
                    locale: int -> string, p: RowPaint, rows: seq<RowPaint>)
    requires k < |visible| && p.index == e.startIndex + k
    requires PaintedAs(e, cols, xs, visible[k], p, surfaceHeight, hoveredRow, locale)
    requires RowsPainted(e, cols, xs, visible, k + 1, surfaceHeight, hoveredRow, locale, rows)
    ensures RowsPainted(e, cols, xs, visible, k, surfaceHeight, hoveredRow, locale, [p] + rows)
  {
    var out := [p] + rows;
    assert PaintedAt(e, cols, xs, visible, k, surfaceHeight, hoveredRow, locale, p);
    forall i | 0 <= i < |out|
      ensures PaintedAt(e, cols, xs, visible, k, surfaceHeight, hoveredRow, locale, out[i])
    {
      if i > 0 {
        PaintedAtEarlier(e, cols, xs, visible, k, surfaceHeight, hoveredRow, locale, rows[i - 1]);
        assert out[i] == rows[i - 1];
      }
    }
  }

  lemma ConsIncreasing(p: RowPaint, rows: seq<RowPaint>)
    requires Increasing(rows)
    requires forall i :: 0 <= i < |rows| ==> p.index < rows[i].index
    ensures Increasing([p] + rows)
  {
    var out := [p] + rows;
    assert forall i :: 1 <= i < |out| ==> out[i] == rows[i - 1];
  }

  lemma ConsCover(e: Engine, visible: seq<Record>, k: nat, surfaceHeight: int, p: RowPaint, rows: seq<RowPaint>)
    requires p.index == e.startIndex + k
    requires RowsCover(e, visible, k + 1, surfaceHeight, rows)
    ensures RowsCover(e, visible, k, surfaceHeight, [p] + rows)
  {
    var out := [p] + rows;
    forall index | e.startIndex + k <= index < e.startIndex + |visible| && !SkipRow(e, index, surfaceHeight)
      ensures exists i :: 0 <= i < |out| && out[i].index == index
    {
      if index == e.startIndex + k {
        assert out[0].index == index;
      } else {
        var i :| 0 <= i < |rows| && rows[i].index == index;
        assert out[i + 1].index == index;
      }
    }
  }

  /** A drawn record's paint goes in front of the rows painted after it. */
  lemma PaintsRowsCons(e: Engine, cols: seq<Column>, xs: seq<real>, visible: seq<Record>,
                       k: nat, surfaceHeight: int, hoveredRow: int,
                       locale: int -> string, p: RowPaint, rows: seq<RowPaint>)
    requires k < |visible| && p.index == e.startIndex + k
    requires PaintedAs(e, cols, xs, visible[k], p, surfaceHeight, hoveredRow, locale)
    requires PaintsRows(e, cols, xs, visible, k + 1, surfaceHeight, hoveredRow, locale, rows)
    ensures PaintsRows(e, cols, xs, visible, k, surfaceHeight, hoveredRow, locale, [p] + rows)
  {
    ConsPainted(e, cols, xs, visible, k, surfaceHeight, hoveredRow, locale, p, rows);
    ConsIncreasing(p, rows);
    ConsCover(e, visible, k, surfaceHeight, p, rows);
  }

  /** `renderRows()` from the k-th visible record on, for a surface of height
      `surfaceHeight` with `hoveredRow` hovered. It throws exactly when some
      record it draws has a cell that cannot be formatted; otherwise it paints
      every record that is not skipped, once, in order. */
  function PaintRows(e: Engine, cols: seq<Column>, xs: seq<real>, visible: seq<Record>,
                     k: nat, surfaceHeight: int, hoveredRow: int, locale: int -> string)
    : (ps: Option<seq<RowPaint>>)
    requires |xs| == |cols| && k <= |visible|
    ensures ps.None? <==> exists j :: k <= j < |visible| && ThrowsAt(e, cols, xs, visible, j, surfaceHeight, locale)
    ensures ps.Some? ==> PaintsRows(e, cols, xs, visible, k, surfaceHeight, hoveredRow, locale, ps.value)
    decreases |visible| - k
  {
    if k == |visible| then Some([])
    else
      var index := e.startIndex + k;
      var rest := PaintRows(e, cols, xs, visible, k + 1, surfaceHeight, hoveredRow, locale);
      if SkipRow(e, index, surfaceHeight) then
        assert !ThrowsAt(e, cols, xs, visible, k, surfaceHeight, locale);
        if rest.Some? then PaintsRowsSkip(e, cols, xs, visible, k, surfaceHeight, hoveredRow, locale, rest.value); rest
        else rest
      else
        match RowCells(visible[k], cols, xs, locale)
        case None =>
          assert ThrowsAt(e, cols, xs, visible, k, surfaceHeight, locale);
          None
        case Some(cells) =>
          match rest
          case None => None
          case Some(ps) =>
            assert !ThrowsAt(e, cols, xs, visible, k, surfaceHeight, locale);
            var p := RowPaint(index, RowTop(e, index), Background(index, hoveredRow), cells);
            PaintsRowsCons(e, cols, xs, visible, k, surfaceHeight, hoveredRow, locale, p, ps);
            Some([p] + ps)
  }

  datatype Frame = Frame(header: seq<Label>, rows: seq<RowPaint>, borders: seq<real>)

  /** The outcome of `render()`: a frame, nothing (the SVG groups are missing),
      or a TypeError thrown while formatting a cell. */
  datatype Drawing = Painted(frame: Frame) | NotReady | Crashed

  /** `render()`: nothing when the SVG groups are missing; otherwise the
      header, the rows and the borders from the engine's current state, unless
      a drawn row has a cell that cannot be formatted, which throws. */
  function RenderFrame(r: Renderer, e: Engine, locale: int -> string): Drawing
  {
    if r.kind == Svg && !r.groupsReady then NotReady
    else
      match PaintRows(e, VisibleCols(e), CellXs(e), GetVisibleData(e), 0, r.surface.height, r.hoveredRow, locale)
      case None => Crashed
      case Some(rows) => Painted(Frame(HeaderLabels(e), rows, BorderXs(e, r.surface.width)))
  }

  /** Nothing is drawn exactly when the SVG groups are missing; otherwise
      `render()` throws exactly when a drawn row has a cell that cannot be
      formatted, and else draws the header labels, the borders and exactly the
      rows `renderRows()` paints. */
  lemma RenderFrameMeaning(r: Renderer, e: Engine, locale: int -> string)
    ensures var d := RenderFrame(r, e, locale);
      && (d == NotReady <==> r.kind == Svg && !r.groupsReady)
      && (d == Crashed <==>
            && !(r.kind == Svg && !r.groupsReady)
            && exists j :: 0 <= j < |GetVisibleData(e)| &&
                 ThrowsAt(e, VisibleCols(e), CellXs(e), GetVisibleData(e), j, r.surface.height, locale))
      && (d.Painted? ==>
            && d.frame.header == HeaderLabels(e)
            && d.frame.borders == BorderXs(e, r.surface.width)
            && PaintsRows(e, VisibleCols(e), CellXs(e), GetVisibleData(e), 0, r.surface.height, r.hoveredRow, locale,
                          d.frame.rows))
  {
  }

  /** A salary column is among the visible columns. */
  ghost predicate SalaryShown(e: Engine)
  {
    exists k :: 0 <= k < |VisibleCols(e)| && VisibleCols(e)[k].key == "salary"
  }

  /** Formatting a row's cells throws exactly when a salary column is among
      them and the row has no salary. */
  lemma RowCellsThrowExactly(row: Record, cols: seq<Column>, xs: seq<real>, locale: int -> string)
    requires |xs| == |cols|
    ensures RowCells(row, cols, xs, locale).None? <==>
      (exists k :: 0 <= k < |cols| && cols[k].key == "salary") && Field(row, "salary") == Missing
  {
    if RowCells(row, cols, xs, locale).None? {
      var k :| 0 <= k < |cols| && FormatCell(cols[k].key, Field(row, cols[k].key), locale).None?;
      assert cols[k].key == "salary";
    }
    if (exists k :: 0 <= k < |cols| && cols[k].key == "salary") && Field(row, "salary") == Missing {
      var k :| 0 <= k < |cols| && cols[k].key == "salary";
      assert FormatCell(cols[k].key, Field(row, cols[k].key), locale).None?;
    }
  }

  /** `render()` throws exactly when it gets past the SVG group check, a
      salary column is visible, and some drawn row has no salary. */
  lemma RenderCrashesExactly(r: Renderer, e: Engine, locale: int -> string)
    ensures var vis := GetVisibleData(e);
      RenderFrame(r, e, locale) == Crashed <==>
        && !(r.kind == Svg && !r.groupsReady)
        && SalaryShown(e)
        && exists j :: 0 <= j < |vis| && !SkipRow(e, e.startIndex + j, r.surface.height)
                                      && Field(vis[j], "salary") == Missing
  {
    var vis := GetVisibleData(e);
    RenderFrameMeaning(r, e, locale);
    forall j | 0 <= j < |vis|
      ensures ThrowsAt(e, VisibleCols(e), CellXs(e), vis, j, r.surface.height, locale) <==>
        !SkipRow(e, e.startIndex + j, r.surface.height) && SalaryShown(e) && Field(vis[j], "salary") == Missing
    {
      RowCellsThrowExactly(vis[j], VisibleCols(e), CellXs(e), locale);
    }
  }

  /** The two back-ends share one drawing function, so this holds by
      construction: given the same surface and hover state they draw the same
      frame, and the SVG group check is the only place they can differ. */
  lemma BackendsDrawAlike(canvas: Renderer, svg: Renderer, e: Engine, locale: int -> string)
    requires canvas.kind == Canvas && svg.kind == Svg && svg.groupsReady
    requires canvas.surface == svg.surface && canvas.hoveredRow == svg.hoveredRow
    ensures RenderFrame(canvas, e, locale) == RenderFrame(svg, e, locale)
  {
  }
}

=== FILE: scrollbar.dfy ===
/** `ScrollbarManager` (tableManager.js): the custom scrollbars drawn over the
    table. Thumb geometry follows the engine's scroll info proportionally;
    dragging a thumb or clicking a track maps a pointer position back to a
    scroll request. Track lengths (`offsetHeight`, `offsetWidth`, the
    bounding rectangle) are measured by the browser and enter as parameters.
    Ratios are exact reals. */
module Scrollbar {
  import opened Common
  import opened Engine

  /** The smallest thumb length, in pixels. */
  const MinThumb: real := 20.0

  /** Thumb length: the visible fraction of the content times the track length,
      but never below `MinThumb`. */
  function ThumbSize(viewport: int, total: int, track: real): (size: real)
    requires total != 0
    ensures size >= MinThumb
    ensures size >= (viewport as real / total as real) * track
    ensures size == MinThumb || size == (viewport as real / total as real) * track
  {
    MaxReal(MinThumb, (viewport as real / total as real) * track)
  }

  /** A thumb's length, its offset along the track and whether it is shown. */
  datatype Thumb = Thumb(size: real, offset: real, visible: bool)

  /** The arithmetic shared by `updateVerticalScrollbar` and
      `updateHorizontalScrollbar`: the thumb's offset is to the free track
      length what the scroll offset is to the maximum offset; with nothing to
      scroll the thumb is hidden at offset 0. */
  function ThumbFor(viewport: int, total: int, offset: real, maxOffset: int, track: real): (t: Thumb)
    requires total != 0
    ensures t.size == ThumbSize(viewport, total, track)
    ensures t.visible <==> maxOffset > 0
    ensures !t.visible ==> t.offset == 0.0
    ensures t.visible ==> t.offset * maxOffset as real == offset * (track - t.size)
  {
    var size := ThumbSize(viewport, total, track);
    var free := track - size;
    var off := if maxOffset > 0 then (offset / maxOffset as real) * free else 0.0;
    Thumb(size, off, maxOffset > 0)
  }

  lemma ProductBounds(a: real, b: real, c: real)
    requires 0.0 <= a <= 1.0 && 0.0 <= b && c == a * b
    ensures 0.0 <= c <= b
  {
  }

  /** With the offset in range and a track at least one minimum thumb long,
      the thumb fits in its track: it is no longer than the track and its
      offset leaves it wholly inside. */
  lemma ThumbWithinTrack(viewport: int, total: int, offset: real, maxOffset: int, track: real)
    requires total != 0 && viewport >= 0 && maxOffset == MaxInt(0, total - viewport)
    requires track >= MinThumb
    requires 0.0 <= offset <= maxOffset as real
    ensures ThumbFor(viewport, total, offset, maxOffset, track).visible ==>
      ThumbFor(viewport, total, offset, maxOffset, track).size <= track
    ensures 0.0 <= ThumbFor(viewport, total, offset, maxOffset, track).offset
    ensures ThumbFor(viewport, total, offset, maxOffset, track).visible ==>
      ThumbFor(viewport, total, offset, maxOffset, track).offset
        <= track - ThumbFor(viewport, total, offset, maxOffset, track).size
  {
    if maxOffset > 0 {
      var ratio := viewport as real / total as real;
      assert total > viewport;
      assert ratio <= 1.0;
      ProductBounds(ratio, track, ratio * track);
      var size := ThumbSize(viewport, total, track);
      assert size <= track;
      ProductBounds(offset / maxOffset as real, track - size, (offset / maxOffset as real) * (track - size));
    }
  }

  /** `updateVerticalScrollbar(scrollInfo)` for a track `track` pixels tall. */
  function VerticalThumb(info: ScrollInfo, track: real): (t: Thumb)
    requires info.totalHeight != 0
    ensures t.size == ThumbSize(info.containerHeight, info.totalHeight, track)
    ensures t.visible <==> info.maxScrollTop > 0
    ensures !t.visible ==> t.offset == 0.0
    ensures t.visible ==> t.offset * info.maxScrollTop as real == info.scrollTop * (track - t.size)
  {
    ThumbFor(info.containerHeight, info.totalHeight, info.scrollTop, info.maxScrollTop, track)
  }

  /** `updateHorizontalScrollbar(scrollInfo)` for a track `track` pixels wide. */
  function HorizontalThumb(info: ScrollInfo, track: real): (t: Thumb)
    requires info.totalWidth != 0
    ensures t.size == ThumbSize(info.containerWidth, info.totalWidth, track)
    ensures t.visible <==> info.maxScrollLeft > 0
    ensures !t.visible ==> t.offset == 0.0
    ensures t.visible ==> t.offset * info.maxScrollLeft as real == info.scrollLeft * (track - t.size)
  {
    ThumbFor(info.containerWidth, info.totalWidth, info.scrollLeft, info.maxScrollLeft, track)
  }

  /** For an engine whose offsets are in range, both visible thumbs lie inside
      their tracks. */
  lemma ThumbsWithinTracks(e: Engine, verticalTrack: real, horizontalTrack: real)
    requires InBounds(e)
    requires e.totalHeight != 0 && e.totalWidth != 0
    requires e.containerHeight >= 0 && e.containerWidth >= 0
    requires verticalTrack >= MinThumb && horizontalTrack >= MinThumb
    ensures var t := VerticalThumb(GetScrollInfo(e), verticalTrack);
      t.visible ==> 0.0 <= t.offset <= verticalTrack - t.size
    ensures var t := HorizontalThumb(GetScrollInfo(e), horizontalTrack);
      t.visible ==> 0.0 <= t.offset <= horizontalTrack - t.size
  {
    var info := GetScrollInfo(e);
    ThumbWithinTrack(info.containerHeight, info.totalHeight, info.scrollTop, info.maxScrollTop, verticalTrack);
    ThumbWithinTrack(info.containerWidth, info.totalWidth, info.scrollLeft, info.maxScrollLeft, horizontalTrack);
  }

  /** The measured track lengths of the current container's two scrollbars. */
  datatype Tracks = Tracks(height: real, width: real)

  datatype Thumbs = Thumbs(vertical: Thumb, horizontal: Thumb)

  /** `updateScrollbars()`: both thumbs from one snapshot of the scroll info. */
  function UpdateScrollbars(e: Engine, tracks: Tracks): (ts: Thumbs)
    requires e.totalHeight != 0 && e.totalWidth != 0
    ensures ts.vertical.size == ThumbSize(e.containerHeight, e.totalHeight, tracks.height)
    ensures ts.horizontal.size == ThumbSize(e.containerWidth, e.totalWidth, tracks.width)
    ensures ts.vertical.visible <==> e.totalHeight > e.containerHeight
    ensures ts.horizontal.visible <==> e.totalWidth > e.containerWidth
    ensures !ts.vertical.visible ==> ts.vertical.offset == 0.0
    ensures !ts.horizontal.visible ==> ts.horizontal.offset == 0.0
    ensures ts.vertical.visible ==>
      ts.vertical.offset * MaxScrollTop(e) as real == e.scrollTop * (tracks.height - ts.vertical.size)
    ensures ts.horizontal.visible ==>
      ts.horizontal.offset * MaxScrollLeft(e) as real == e.scrollLeft * (tracks.width - ts.horizontal.size)
  {
    var info := GetScrollInfo(e);
    Thumbs(VerticalThumb(info, tracks.height), HorizontalThumb(info, tracks.width))
  }

  // ---------------------------------------------------------------------------
  // Drag and click state
  // ---------------------------------------------------------------------------

  /** The manager's own state: the container whose scrollbars it drives and the
      drag flags (`isDragging`, `dragType`, `dragStartPos`, `dragStartScroll`). */
  datatype Scrollbar = Scrollbar(
    container: Backend,
    dragging: bool,
    dragAxis: Option<Axis>,
    dragStartPos: real,
    dragStartScroll: real)

  /** The constructor: the canvas container, no drag in progress. */
  function NewScrollbar(): (sb: Scrollbar)
    ensures sb.container == Canvas && !sb.dragging && sb.dragAxis.None?
  {
    Scrollbar(Canvas, false, None, 0.0, 0.0)
  }

  /** `startDrag(e, type)`: remember the pointer coordinate along the dragged
      axis and the engine's offset on that axis. */
  function StartDrag(sb: Scrollbar, e: Engine, axis: Axis, clientX: real, clientY: real): (sb': Scrollbar)
    ensures sb'.dragging && sb'.dragAxis == Some(axis)
    ensures sb'.container == sb.container
    ensures axis == Vertical ==> sb'.dragStartPos == clientY && sb'.dragStartScroll == e.scrollTop
    ensures axis == Horizontal ==> sb'.dragStartPos == clientX && sb'.dragStartScroll == e.scrollLeft
  {
    match axis
    case Vertical => sb.(dragging := true, dragAxis := Some(Vertical), dragStartPos := clientY, dragStartScroll := e.scrollTop)
    case Horizontal => sb.(dragging := true, dragAxis := Some(Horizontal), dragStartPos := clientX, dragStartScroll := e.scrollLeft)
  }

  /** The offset a drag requests: the pointer's displacement as a fraction of
      the free track length, scaled to the scrollable range, added to the offset
      at the start of the drag. */
  function DragTarget(startScroll: real, delta: real, freeTrack: real, maxOffset: int): (t: real)
    requires freeTrack != 0.0
    ensures delta == 0.0 ==> t == startScroll
  {
    startScroll + (delta / freeTrack) * maxOffset as real
  }

  /** Dragging moves the thumb with the pointer: the thumb offset that belongs
      to the requested scroll offset is the starting thumb offset plus the
      pointer's displacement. */
  lemma DragFollowsPointer(startScroll: real, delta: real, freeTrack: real, maxOffset: int)
    requires freeTrack != 0.0 && maxOffset > 0
    ensures (DragTarget(startScroll, delta, freeTrack, maxOffset) / maxOffset as real) * freeTrack
         == (startScroll / maxOffset as real) * freeTrack + delta
  {
    var m := maxOffset as real;
    var t := DragTarget(startScroll, delta, freeTrack, maxOffset);
    assert t / m == startScroll / m + delta / freeTrack;
    assert (delta / freeTrack) * freeTrack == delta;
  }

  /** `handleDrag(e)`: nothing unless a drag is in progress; otherwise the
      dragged axis is scrolled to the drag target through the engine.
      `tracks` are the current container's track lengths. */
  function HandleDrag(sb: Scrollbar, e: Engine, clientX: real, clientY: real, tracks: Tracks): (s: Option<Step>)
    requires sb.dragging ==> e.totalHeight != 0 && e.totalWidth != 0
    requires sb.dragging && sb.dragAxis == Some(Vertical) ==>
      tracks.height - ThumbSize(e.containerHeight, e.totalHeight, tracks.height) != 0.0
    requires sb.dragging && sb.dragAxis != Some(Vertical) ==>
      tracks.width - ThumbSize(e.containerWidth, e.totalWidth, tracks.width) != 0.0
    ensures s.None? <==> !sb.dragging
    ensures s.Some? && sb.dragAxis == Some(Vertical) ==>
      s.value == HandleVerticalScroll(e, DragTarget(sb.dragStartScroll, clientY - sb.dragStartPos,
        tracks.height - ThumbSize(e.containerHeight, e.totalHeight, tracks.height), MaxScrollTop(e)))
    ensures s.Some? && sb.dragAxis != Some(Vertical) ==>
      s.value == HandleHorizontalScroll(e, DragTarget(sb.dragStartScroll, clientX - sb.dragStartPos,
        tracks.width - ThumbSize(e.containerWidth, e.totalWidth, tracks.width), MaxScrollLeft(e)))
    ensures s.Some? && sb.dragAxis == Some(Vertical) && clientY == sb.dragStartPos
            && 0.0 <= sb.dragStartScroll <= MaxScrollTop(e) as real ==>
      s.value.engine.scrollTop == sb.dragStartScroll
    ensures s.Some? && sb.dragAxis != Some(Vertical) && clientX == sb.dragStartPos
            && 0.0 <= sb.dragStartScroll <= MaxScrollLeft(e) as real ==>
      s.value.engine.scrollLeft == sb.dragStartScroll
  {
    if !sb.dragging then None
    else
      var info := GetScrollInfo(e);
      if sb.dragAxis == Some(Vertical) then
        var free := tracks.height - ThumbSize(info.containerHeight, info.totalHeight, tracks.height);
        Some(HandleVerticalScroll(e, DragTarget(sb.dragStartScroll, clientY - sb.dragStartPos, free, info.maxScrollTop)))
      else
        var free := tracks.width - ThumbSize(info.containerWidth, info.totalWidth, tracks.width);
        Some(HandleHorizontalScroll(e, DragTarget(sb.dragStartScroll, clientX - sb.dragStartPos, free, info.maxScrollLeft)))
  }

  /** `endDrag()`: the drag flags are cleared; the start values stay. */
  function EndDrag(sb: Scrollbar): (sb': Scrollbar)
    ensures !sb'.dragging && sb'.dragAxis.None?
    ensures sb' == sb.(dragging := false, dragAxis := None)
  {
    sb.(dragging := false, dragAxis := None)
  }

  /** After `endDrag` further pointer moves request nothing. */
  lemma NoDragAfterEnd(sb: Scrollbar, e: Engine, clientX: real, clientY: real, tracks: Tracks)
    ensures HandleDrag(EndDrag(sb), e, clientX, clientY, tracks).None?
  {
  }

  /** The offset a click on a track requests: the click's position along the
      track as a fraction of its length, scaled to the scrollable range. */
  function ClickTarget(click: real, trackLength: real, maxOffset: int): (t: real)
    requires trackLength != 0.0
    ensures t * trackLength == click * maxOffset as real
    ensures click == 0.0 ==> t == 0.0
    ensures click == trackLength ==> t == maxOffset as real
  {
    var m := maxOffset as real;
    assert (click / trackLength) * m * trackLength == click * m;
    (click / trackLength) * m
  }

  /** A click inside the track requests an offset inside the scrollable range,
      and a click further along requests a larger one. */
  lemma ClickTargetInRange(click: real, other: real, trackLength: real, maxOffset: int)
    requires trackLength > 0.0 && maxOffset >= 0
    requires 0.0 <= click <= trackLength
    ensures 0.0 <= ClickTarget(click, trackLength, maxOffset) <= maxOffset as real
    ensures click <= other ==> ClickTarget(click, trackLength, maxOffset) <= ClickTarget(other, trackLength, maxOffset)
  {
    ProductBounds(click / trackLength, maxOffset as real, ClickTarget(click, trackLength, maxOffset));
    if click <= other {
      assert click / trackLength <= other / trackLength;
    }
  }

  /** `handleScrollbarClick(e, type)`: `click` is the pointer's distance from
      the track's leading edge. A click inside the track scrolls exactly to the
      proportional offset through the engine. */
  function TrackClick(e: Engine, axis: Axis, click: real, trackLength: real): (s: Step)
    requires trackLength != 0.0
    ensures axis == Vertical ==> s == HandleVerticalScroll(e, ClickTarget(click, trackLength, MaxScrollTop(e)))
    ensures axis == Horizontal ==> s == HandleHorizontalScroll(e, ClickTarget(click, trackLength, MaxScrollLeft(e)))
  {
    var info := GetScrollInfo(e);
    match axis
    case Vertical => HandleVerticalScroll(e, ClickTarget(click, trackLength, info.maxScrollTop))
    case Horizontal => HandleHorizontalScroll(e, ClickTarget(click, trackLength, info.maxScrollLeft))
  }

  /** A click inside the track scrolls exactly to the proportional offset:
      the engine's clamp leaves it untouched. */
  lemma TrackClickLands(e: Engine, axis: Axis, click: real, trackLength: real)
    requires trackLength > 0.0 && 0.0 <= click <= trackLength
    ensures axis == Vertical ==>
      TrackClick(e, axis, click, trackLength).engine.scrollTop == ClickTarget(click, trackLength, MaxScrollTop(e))
    ensures axis == Horizontal ==>
      TrackClick(e, axis, click, trackLength).engine.scrollLeft == ClickTarget(click, trackLength, MaxScrollLeft(e))
  {
    ClickTargetInRange(click, click, trackLength, MaxScrollTop(e));
    ClickTargetInRange(click, click, trackLength, MaxScrollLeft(e));
  }

  /** `switchContainer(type)`: only the driven container changes ('canvas'
      selects the canvas container, anything else the SVG one); the thumbs
      are then recomputed for it. */
  function SwitchContainer(sb: Scrollbar, kind: Backend, e: Engine, tracks: Tracks): (r: (Scrollbar, Thumbs))
    requires e.totalHeight != 0 && e.totalWidth != 0
    ensures r.0 == sb.(container := kind)
    ensures r.1 == UpdateScrollbars(e, tracks)
  {
    (sb.(container := kind), UpdateScrollbars(e, tracks))
  }
}

=== FILE: table.dfy ===
/** `TableManager` (tableManager.js): the coordinator that wires the engine to
    the two renderers and the scrollbar manager. It reacts to the engine's
    listener calls, switches the render mode and owns the four search boxes.
    DOM side effects are modelled as a trace of effects: a renderer drawing a
    frame, or the scrollbar manager resizing its thumbs. A call ends early with
    a thrown `TypeError` when it reaches an absent scrollbar manager or renderer
    without a guard, or when `render()` meets a drawn row without a salary;
    the effects before the throw stay, and the `threw` flag records it.
    `toLocaleString` on numbers is the `locale` parameter throughout. */
module Table {
  import opened Common
  import opened Records
  import opened VirtualScroll = Engine
  import opened Render
  import opened Scrollbar

  /** The four search boxes, in the order the filter object lists its keys. */
  datatype SearchBoxes = SearchBoxes(name: string, department: string, city: string, experience: string)

  const EmptyBoxes := SearchBoxes("", "", "", "")

  /** The filter object handed to `filterData`, in its key order. */
  function AsFilters(b: SearchBoxes): (f: Filters)
  {
    [("name", b.name), ("department", b.department), ("city", b.city), ("experience", b.experience)]
  }

  /** A search box the user can type into. */
  datatype Box = NameBox | DepartmentBox | CityBox | ExperienceBox

  /** The two renderers; `initRenderers` creates both or neither. */
  datatype Renderers = Renderers(canvas: Renderer, svg: Renderer)

  datatype Table = Table(
    engine: VirtualScroll.Engine,
    mode: string,
    current: Backend,
    renderers: Option<Renderers>,
    scrollbar: Option<Scrollbar>,
    boxes: SearchBoxes)

  /** A visible side effect: a renderer drew a frame, or the thumbs of a
      container's scrollbars were recomputed. */
  datatype Effect = Drew(kind: Backend) | ThumbsSet(container: Backend, thumbs: Thumbs)

  /** The effects of some calls in order, and whether the last of them threw
      (nothing after a throw runs). */
  datatype Answer = Answer(effects: seq<Effect>, threw: bool)

  /** The state after a call, its effects in order, and whether it threw. */
  datatype Run = Run(table: Table, effects: seq<Effect>, threw: bool)

  /** The renderer `currentRenderer` points to. */
  function CurrentRenderer(t: Table): Renderer
    requires t.renderers.Some?
  {
    if t.current == Canvas then t.renderers.value.canvas else t.renderers.value.svg
  }

  /** `currentRenderer.render()` throws on the table's current state. */
  predicate RenderThrows(t: Table, locale: int -> string)
  {
    t.renderers.Some? && RenderFrame(CurrentRenderer(t), t.engine, locale) == Crashed
  }

  /** The effect of a `currentRenderer.render()` that completes: one frame
      drawn by the current renderer, or nothing when there are no renderers. */
  function Drawn(t: Table): seq<Effect>
  {
    if t.renderers.Some? then [Drew(t.current)] else []
  }

  /** `currentRenderer.render()` behind the listeners' guard. */
  function Redraw(t: Table, locale: int -> string): (a: Answer)
  {
    if RenderThrows(t, locale) then Answer([], true) else Answer(Drawn(t), false)
  }

  /** `scrollbarManager.updateScrollbars()` when the manager exists. */
  function Refresh(t: Table, tracks: Tracks): (fx: seq<Effect>)
    requires t.engine.totalHeight != 0 && t.engine.totalWidth != 0
  {
    match t.scrollbar
    case None => []
    case Some(sb) => [ThumbsSet(sb.container, UpdateScrollbars(t.engine, tracks))]
  }

  /** `handleScroll` for `Scrolled` (thumbs first, then a redraw) and
      `handleDataChange` for `DataChanged` (a redraw only). */
  function OnNotice(t: Table, n: Notice, tracks: Tracks, locale: int -> string): (a: Answer)
    requires t.engine.totalHeight != 0 && t.engine.totalWidth != 0
  {
    match n
    case DataChanged(_, _, _, _, _) => Redraw(t, locale)
    case Scrolled(_, _, _, _) =>
      var d := Redraw(t, locale);
      Answer(Refresh(t, tracks) + d.effects, d.threw)
  }

  /** Either handler throws exactly when `render()` throws, and then draws
      nothing; a scroll report sets the thumbs before it renders. */
  lemma OnNoticeMeaning(t: Table, n: Notice, tracks: Tracks, locale: int -> string)
    requires t.engine.totalHeight != 0 && t.engine.totalWidth != 0
    ensures var a := OnNotice(t, n, tracks, locale);
      && (a.threw <==> RenderThrows(t, locale))
      && (forall fx :: fx in a.effects && fx.Drew? ==> fx.kind == t.current)
      && (n.DataChanged? ==> a.effects == (if a.threw then [] else Drawn(t)))
      && (n.Scrolled? ==> a.effects == Refresh(t, tracks) + (if a.threw then [] else Drawn(t)))
  {
  }

  /** The listener calls of one engine step, answered in order; a throwing
      listener stops the engine method, so the later calls never happen. */
  function Dispatch(t: Table, ns: seq<Notice>, tracks: Tracks, locale: int -> string): (a: Answer)
    requires t.engine.totalHeight != 0 && t.engine.totalWidth != 0
  {
    if |ns| == 0 then Answer([], false)
    else Then(OnNotice(t, ns[0], tracks, locale), Dispatch(t, ns[1..], tracks, locale))
  }

  /** `a` and then `b` on one call stack: `b` happens only when `a` did not
      throw, and the answer throws when either does. */
  function Then(a: Answer, b: Answer): Answer
  {
    if a.threw then a else Answer(a.effects + b.effects, b.threw)
  }

  /** Sequencing is associative, so a trace of calls can be split anywhere. */
  lemma ThenAssociative(a: Answer, b: Answer, c: Answer)
    ensures Then(Then(a, b), c) == Then(a, Then(b, c))
  {
    if !a.threw && !b.threw {
      assert a.effects + b.effects + c.effects == a.effects + (b.effects + c.effects);
    }
  }

  /** Answering a trace of calls answers each call in turn, and stops at the
      first that throws. */
  lemma {:induction false} DispatchAppend(t: Table, ns: seq<Notice>, n: Notice, tracks: Tracks, locale: int -> string)
    requires t.engine.totalHeight != 0 && t.engine.totalWidth != 0
    ensures Dispatch(t, ns + [n], tracks, locale) == Then(Dispatch(t, ns, tracks, locale), OnNotice(t, n, tracks, locale))
    decreases |ns|
  {
    var last := OnNotice(t, n, tracks, locale);
    if |ns| == 0 {
      assert [] + [n] == [n] && [n][1..] == [];
      assert last.effects + [] == last.effects;
    } else {
      assert (ns + [n])[0] == ns[0];
      assert (ns + [n])[1..] == ns[1..] + [n];
      DispatchAppend(t, ns[1..], n, tracks, locale);
      ThenAssociative(OnNotice(t, ns[0], tracks, locale), Dispatch(t, ns[1..], tracks, locale), last);
    }
  }

  /** A single listener call is answered by its own handler. */
  lemma DispatchOne(t: Table, n: Notice, tracks: Tracks, locale: int -> string)
    requires t.engine.totalHeight != 0 && t.engine.totalWidth != 0
    ensures Dispatch(t, [n], tracks, locale) == OnNotice(t, n, tracks, locale)
  {
    assert [n][1..] == [];
  }

  /** Every listener call renders the same state, so a trace of calls throws
      exactly when there is a call and rendering throws; it then stops at the
      first call, after that call's thumb update if it is a scroll report. */
  lemma {:induction false} DispatchThrowsExactly(t: Table, ns: seq<Notice>, tracks: Tracks, locale: int -> string)
    requires t.engine.totalHeight != 0 && t.engine.totalWidth != 0
    ensures Dispatch(t, ns, tracks, locale).threw <==> |ns| > 0 && RenderThrows(t, locale)
    ensures |ns| > 0 && RenderThrows(t, locale) ==>
      Dispatch(t, ns, tracks, locale).effects == (if ns[0].Scrolled? then Refresh(t, tracks) else [])
    decreases |ns|
  {
    if |ns| > 0 {
      DispatchThrowsExactly(t, ns[1..], tracks, locale);
      if RenderThrows(t, locale) && ns[0].Scrolled? {
        assert Refresh(t, tracks) + [] == Refresh(t, tracks);
      }
    }
  }

  /** Only the current renderer is ever drawn, and only the current container's
      thumbs are updated, however many listener calls arrive; when rendering
      does not throw, any call draws. */
  lemma {:induction false} OnlyCurrentDrawn(t: Table, ns: seq<Notice>, tracks: Tracks, locale: int -> string)
    requires t.engine.totalHeight != 0 && t.engine.totalWidth != 0
    ensures forall fx :: fx in Dispatch(t, ns, tracks, locale).effects && fx.Drew? ==> fx.kind == t.current
    ensures forall fx :: fx in Dispatch(t, ns, tracks, locale).effects && fx.ThumbsSet? ==>
      t.scrollbar.Some? && fx.container == t.scrollbar.value.container
    ensures |ns| > 0 && t.renderers.Some? && !RenderThrows(t, locale) ==>
      Drew(t.current) in Dispatch(t, ns, tracks, locale).effects
    decreases |ns|
  {
    if |ns| > 0 {
      OnlyCurrentDrawn(t, ns[1..], tracks, locale);
    }
  }

  /** Adopt an engine step and answer its listener calls. The engine method
      has finished its own updates before it calls a listener, so the new
      engine state stands even when a listener throws. */
  function Apply(t: Table, s: Step, tracks: Tracks, locale: int -> string): (r: Run)
    requires s.engine.totalHeight != 0 && s.engine.totalWidth != 0
  {
    var t' := t.(engine := s.engine);
    var a := Dispatch(t', s.notices, tracks, locale);
    Run(t', a.effects, a.threw)
  }

  /** Rows that all carry a salary never make `render()` throw. */
  lemma SalariedRowsNeverThrow(t: Table, locale: int -> string)
    requires forall row :: row in t.engine.filtered ==> Field(row, "salary") != Missing
    ensures !RenderThrows(t, locale)
  {
    if t.renderers.Some? {
      var e := t.engine;
      RenderCrashesExactly(CurrentRenderer(t), e, locale);
      var vis := GetVisibleData(e);
      assert forall j :: 0 <= j < |vis| ==> vis[j] in e.filtered;
    }
  }

  // ---------------------------------------------------------------------------
  // Render mode
  // ---------------------------------------------------------------------------

  /** `switchRenderMode(mode)`. The same mode is a no-op. Otherwise the mode is
      recorded first. The table has no scrollbar manager exactly when one of
      the two containers is missing, and then the first `style` write to the
      missing container throws before anything else changes. With both
      containers, 'canvas' selects the canvas renderer and container, and any
      other string the SVG ones, re-measuring the SVG surface (`svgRect`); the
      scrollbar manager moves to the new container and updates its thumbs, the
      current renderer draws, and the thumbs are updated once more. */
  function SwitchRenderMode(t: Table, mode: string, svgRect: Size, tracks: Tracks, locale: int -> string): (r: Run)
    requires t.engine.totalHeight != 0 && t.engine.totalWidth != 0
    ensures mode == t.mode ==> r == Run(t, [], false)
    ensures mode != t.mode && t.scrollbar.None? ==> r == Run(t.(mode := mode), [], true)
    ensures mode != t.mode && t.scrollbar.Some? ==>
      && r.table.mode == mode
      && (r.table.current == Canvas <==> mode == "canvas")
      && r.table.engine == t.engine && r.table.boxes == t.boxes
      && r.table.renderers.Some? == t.renderers.Some?
      && r.table.scrollbar == Some(t.scrollbar.value.(container := r.table.current))
      && (r.threw <==> RenderThrows(r.table, locale))
      && (Drew(r.table.current) in r.effects <==> t.renderers.Some? && !RenderThrows(r.table, locale))
      && (forall fx :: fx in r.effects && fx.Drew? ==> fx.kind == r.table.current)
      // the container switch updates the thumbs first, and a switch that
      // completes ends with the unguarded update
      && |r.effects| > 0 && r.effects[0] == ThumbsSet(r.table.current, UpdateScrollbars(t.engine, tracks))
      && (!r.threw ==> r.effects[|r.effects| - 1] == ThumbsSet(r.table.current, UpdateScrollbars(t.engine, tracks)))
  {
    if mode == t.mode then Run(t, [], false)
    else
      match t.scrollbar
      case None => Run(t.(mode := mode), [], true)
      case Some(sb) =>
        var kind := if mode == "canvas" then Canvas else Svg;
        var renderers :=
          match t.renderers
          case Some(rs) => Some(if kind == Svg then rs.(svg := rs.svg.(surface := SetupSurface(Svg, svgRect))) else rs)
          case None => None;
        var (sb', thumbs) := SwitchContainer(sb, kind, t.engine, tracks);
        var t2 := t.(mode := mode, current := kind, renderers := renderers, scrollbar := Some(sb'));
        var d := Redraw(t2, locale);
        if d.threw then Run(t2, [ThumbsSet(kind, thumbs)], true)
        else Run(t2, [ThumbsSet(kind, thumbs)] + d.effects + Refresh(t2, tracks), false)
  }

  /** Switching to the mode already shown changes nothing, so a repeated switch
      is idempotent. */
  lemma SwitchRenderModeIdempotent(t: Table, mode: string, svgRect: Size, tracks: Tracks, locale: int -> string)
    requires t.engine.totalHeight != 0 && t.engine.totalWidth != 0
    ensures var r := SwitchRenderMode(t, mode, svgRect, tracks, locale);
      SwitchRenderMode(r.table, mode, svgRect, tracks, locale) == Run(r.table, [], false)
  {
  }

  /** Switching away and back restores the mode, the renderer choice and the
      scrollbar container; the engine and the search boxes are never touched. */
  lemma SwitchRoundTrip(t: Table, other: string, svgRect: Size, tracks: Tracks, locale: int -> string)
    requires t.engine.totalHeight != 0 && t.engine.totalWidth != 0
    requires t.current == (if t.mode == "canvas" then Canvas else Svg)
    requires t.scrollbar.Some? ==> t.scrollbar.value.container == t.current
    requires other != t.mode
    ensures var back := SwitchRenderMode(SwitchRenderMode(t, other, svgRect, tracks, locale).table,
                                         t.mode, svgRect, tracks, locale).table;
      && back.mode == t.mode && back.current == t.current
      && back.engine == t.engine && back.boxes == t.boxes
      && back.scrollbar == t.scrollbar
  {
  }

  // ---------------------------------------------------------------------------
  // Search
  // ---------------------------------------------------------------------------

  /** The content extents the scrollbar manager divides by are non-zero, now
      and after the engine re-measures its columns. */
  ghost predicate Measurable(e: VirtualScroll.Engine)
  {
    e.totalHeight != 0 && e.totalWidth != 0 && Columns.TotalWidth(e.columns) != 0
  }

  /** The engine the manager builds for a measured container passes no row
      height, header height, buffer or columns, so it gets the defaults, whose
      header and column widths make both content extents positive. */
  lemma ManagerEngineMeasurable(data: seq<Record>, measured: Option<Size>)
    requires measured.Some?
    ensures Measurable(NewEngine(Options(data, 0, 0, None, 0), measured).engine)
  {
    var e := NewEngine(Options(data, 0, 0, None, 0), measured).engine;
    Columns.TotalWidthIsPrefix(Columns.DefaultColumns);
    assert e.totalHeight >= 45;
  }

  /** Filtering never leaves the table without a height or width to divide by. */
  lemma FilteredStaysMeasurable(e: VirtualScroll.Engine, f: Filters, measured: Option<Size>)
    requires Measurable(e)
    requires FilterData(e, f, measured).Applied?
    ensures Measurable(FilterData(e, f, measured).step.engine)
  {
    var d := FilterData(e, f, measured).step.engine;
    Columns.TotalWidthIsPrefix(e.columns);
    if measured.Some? {
      NonNegativeProduct(|d.filtered|, e.rowHeight);
    }
  }

  lemma NonNegativeProduct(a: nat, b: nat)
    ensures a * b >= 0
  {
  }

  /** `applyFilters()`: filter the engine by the search boxes (`measured` is the
      container the engine re-measures), answer its listener call, then update
      the thumbs; the last call is unguarded. A throwing filter aborts before
      anything else happens; a throwing redraw ends the call before the thumbs
      are touched, with the filtered engine already in place. */
  function ApplyFilters(t: Table, measured: Option<Size>, tracks: Tracks, locale: int -> string): (r: Run)
    requires Measurable(t.engine)
    ensures FilterData(t.engine, AsFilters(t.boxes), measured).Aborted? ==> r == Run(t, [], true)
    ensures FilterData(t.engine, AsFilters(t.boxes), measured).Applied? ==>
      && r.table == t.(engine := FilterData(t.engine, AsFilters(t.boxes), measured).step.engine)
      && Measurable(r.table.engine)
      && (r.threw <==> RenderThrows(r.table, locale) || t.scrollbar.None?)
      && (RenderThrows(r.table, locale) ==> r.effects == [])
      && (!RenderThrows(r.table, locale) ==> r.effects == Drawn(t) + Refresh(r.table, tracks))
  {
    match FilterData(t.engine, AsFilters(t.boxes), measured)
    case Aborted => Run(t, [], true)
    case Applied(s) =>
      FilteredStaysMeasurable(t.engine, AsFilters(t.boxes), measured);
      var run := Apply(t, s, tracks, locale);
      DispatchOne(run.table, s.notices[0], tracks, locale);
      assert [s.notices[0]] == s.notices;
      if run.threw then run
      else Run(run.table, run.effects + Refresh(run.table, tracks), t.scrollbar.None?)
  }

  /** Typing into one search box: that box takes the new text, the others keep
      theirs, then `applyFilters()` runs with the updated boxes. */
  function EditBox(t: Table, box: Box, text: string, measured: Option<Size>, tracks: Tracks, locale: int -> string)
    : (r: Run)
    requires Measurable(t.engine)
    ensures r.table.boxes.name == (if box == NameBox then text else t.boxes.name)
    ensures r.table.boxes.department == (if box == DepartmentBox then text else t.boxes.department)
    ensures r.table.boxes.city == (if box == CityBox then text else t.boxes.city)
    ensures r.table.boxes.experience == (if box == ExperienceBox then text else t.boxes.experience)
    ensures r == ApplyFilters(t.(boxes := r.table.boxes), measured, tracks, locale)
  {
    var boxes := match box
      case NameBox => t.boxes.(name := text)
      case DepartmentBox => t.boxes.(department := text)
      case CityBox => t.boxes.(city := text)
      case ExperienceBox => t.boxes.(experience := text);
    ApplyFilters(t.(boxes := boxes), measured, tracks, locale)
  }

  /** `clearFilters()`: all four boxes emptied, then `applyFilters()`. */
  function ClearFilters(t: Table, measured: Option<Size>, tracks: Tracks, locale: int -> string): (r: Run)
    requires Measurable(t.engine)
    ensures r.table.boxes == EmptyBoxes
  {
    ApplyFilters(t.(boxes := EmptyBoxes), measured, tracks, locale)
  }

  /** After `clearFilters()` every record of the base data is shown again, in
      order, from the top-left corner; the call throws when the redraw of that
      state throws or there is no scrollbar manager. */
  lemma ClearFiltersShowsAll(t: Table, measured: Option<Size>, tracks: Tracks, locale: int -> string)
    requires Measurable(t.engine)
    ensures var r := ClearFilters(t, measured, tracks, locale);
      && r.table.engine.filtered == t.engine.data
      && r.table.engine.data == t.engine.data
      && r.table.engine.scrollTop == 0.0 && r.table.engine.scrollLeft == 0.0
      && (r.threw <==> t.scrollbar.None? || RenderThrows(r.table, locale))
  {
    var f := AsFilters(EmptyBoxes);
    assert AllBlank(f);
    BlankFilterKeepsAll(t.engine.data, f);
  }

  // ---------------------------------------------------------------------------
  // Scrolling and data
  // ---------------------------------------------------------------------------

  /** A vertical scroll is answered as the engine reports it: the data change
      redraws, then the scroll report updates the thumbs for the new offset and
      redraws again. When the redraw throws, the engine method stops at the
      first listener call: nothing is drawn and the thumbs stay as they were. */
  lemma VerticalScrollEffects(t: Table, target: real, tracks: Tracks, locale: int -> string)
    requires t.engine.totalHeight != 0 && t.engine.totalWidth != 0
    requires t.renderers.Some? && t.scrollbar.Some?
    ensures var run := Apply(t, HandleVerticalScroll(t.engine, target), tracks, locale);
      && (run.threw <==> RenderThrows(run.table, locale))
      && (RenderThrows(run.table, locale) ==> run.effects == [])
      && (!RenderThrows(run.table, locale) ==>
            run.effects == [Drew(t.current), ThumbsSet(t.scrollbar.value.container, UpdateScrollbars(run.table.engine, tracks)),
                            Drew(t.current)])
  {
    var s := HandleVerticalScroll(t.engine, target);
    var t' := t.(engine := s.engine);
    DispatchAppend(t', [], s.notices[0], tracks, locale);
    DispatchAppend(t', [s.notices[0]], s.notices[1], tracks, locale);
    assert [] + [s.notices[0]] == [s.notices[0]];
    assert [s.notices[0]] + [s.notices[1]] == s.notices;
  }

  /** A wheel event over the current renderer scrolls the engine along one
      axis and the table answers the engine's listener calls; it throws
      exactly when redrawing the scrolled state throws. */
  function OnWheel(t: Table, deltaX: real, deltaY: real, tracks: Tracks, locale: int -> string): (r: Run)
    requires t.engine.totalHeight != 0 && t.engine.totalWidth != 0
    ensures r == Apply(t, Render.Wheel(t.engine, deltaX, deltaY), tracks, locale)
    ensures r.table == t.(engine := Render.Wheel(t.engine, deltaX, deltaY).engine)
    ensures r.table.engine.scrollTop == t.engine.scrollTop || r.table.engine.scrollLeft == t.engine.scrollLeft
    ensures r.threw <==> RenderThrows(r.table, locale)
  {
    var s := Render.Wheel(t.engine, deltaX, deltaY);
    DispatchThrowsExactly(t.(engine := s.engine), s.notices, tracks, locale);
    Apply(t, s, tracks, locale)
  }

  /** A pointer move during a thumb drag: with no drag in progress (or no
      scrollbar manager) nothing happens; otherwise the engine scrolls to the
      drag target and the table answers its listener calls. */
  function OnDragMove(t: Table, clientX: real, clientY: real, tracks: Tracks, locale: int -> string): (r: Run)
    requires t.scrollbar.Some? && t.scrollbar.value.dragging ==>
      t.engine.totalHeight != 0 && t.engine.totalWidth != 0
    requires t.scrollbar.Some? && t.scrollbar.value.dragging && t.scrollbar.value.dragAxis == Some(Vertical) ==>
      tracks.height - ThumbSize(t.engine.containerHeight, t.engine.totalHeight, tracks.height) != 0.0
    requires t.scrollbar.Some? && t.scrollbar.value.dragging && t.scrollbar.value.dragAxis != Some(Vertical) ==>
      tracks.width - ThumbSize(t.engine.containerWidth, t.engine.totalWidth, tracks.width) != 0.0
    ensures t.scrollbar.None? || !t.scrollbar.value.dragging ==> r == Run(t, [], false)
    ensures t.scrollbar.Some? && t.scrollbar.value.dragging ==>
      && r == Apply(t, HandleDrag(t.scrollbar.value, t.engine, clientX, clientY, tracks).value, tracks, locale)
      && (r.threw <==> RenderThrows(r.table, locale))
  {
    match t.scrollbar
    case None => Run(t, [], false)
    case Some(sb) =>
      match HandleDrag(sb, t.engine, clientX, clientY, tracks)
      case None => Run(t, [], false)
      case Some(s) =>
        DispatchThrowsExactly(t.(engine := s.engine), s.notices, tracks, locale);
        Apply(t, s, tracks, locale)
  }

  /** `setData(data)`: the engine takes the new records (keeping its offsets)
      and reports the change, then the thumbs are updated and the current
      renderer draws once more. Those two calls are unguarded: without a
      scrollbar manager the call throws after the first redraw, and without
      renderers at the final draw. A redraw that throws ends the call at the
      first listener call. */
  function SetData(t: Table, data: seq<Record>, measured: Option<Size>, tracks: Tracks, locale: int -> string)
    : (r: Run)
    requires Measurable(t.engine)
    ensures r.table == t.(engine := VirtualScroll.SetData(t.engine, data, measured).engine)
    ensures r.threw <==> t.scrollbar.None? || t.renderers.None? || RenderThrows(r.table, locale)
    ensures RenderThrows(r.table, locale) ==> r.effects == []
    ensures t.scrollbar.Some? && t.renderers.Some? && !RenderThrows(r.table, locale) ==>
      r.effects == [Drew(t.current), ThumbsSet(t.scrollbar.value.container,
                                               UpdateScrollbars(r.table.engine, tracks)), Drew(t.current)]
  {
    var s := VirtualScroll.SetData(t.engine, data, measured);
    Columns.TotalWidthIsPrefix(t.engine.columns);
    var run := Apply(t, s, tracks, locale);
    DispatchOne(run.table, s.notices[0], tracks, locale);
    assert [s.notices[0]] == s.notices;
    if run.threw then run
    else if t.scrollbar.None? then Run(run.table, run.effects, true)
    else
      var fx := run.effects + Refresh(run.table, tracks);
      if t.renderers.None? then Run(run.table, fx, true)
      else
        var d := Redraw(run.table, locale);
        Run(run.table, fx + d.effects, d.threw)
  }
}
